=== FILE: README.md ===
# CacheThis in Dafny

CacheThis memoizes C# methods at compile time. Two source generators,
CacheThis and CacheIt, find methods that carry a caching attribute. They
group those methods by containing type and emit a `<Type>_Cached` subclass
for each type. In that subclass, every virtual, abstract or override method
becomes a caching override. Every other method gets a forwarding method of
the same name that calls the wrapped instance. It is declared without
`override`, so it hides the base method and is reached only through the
`_Cached` type itself.

A caching override builds its key from the bare method name and the text of
each argument. It hashes that text (SHA256) and renders the digest as
lowercase hexadecimal. It answers from a static `MemoryCache` when the key is
present. Otherwise it calls the wrapped instance once and stores the result,
with the expiration options read from the attribute's named arguments.

The repository also contains:
- two analyzers: a self-recursion warning (`CacheIt002`) and a
  "cached but not virtual" warning (`CacheIt001`);
- the attribute class with its expiration getters;
- a generator that lists every class's display name;
- a demo program with a run-time `DispatchProxy` cache, whose static
  dictionary keeps the first value stored for a key, and a `Minus` type
  with two Fibonacci builders.

The model states each of these in Dafny, one module per component:

| module | file | what it holds |
|---|---|---|
| `Common` | common.dfy | `Option`, `Result`, the exceptions, 32-bit wrap-around, `string.Split`, `string.Join`, `Contains` |
| `Symbols` | symbols.dfy | method symbols, attributes, invocations and diagnostics as plain values |
| `CacheKey` | cache_key.dfy | key pre-image, hexadecimal rendering, algorithm selection, key derivation |
| `EntryOptions` | entry_options.dfy | which expiration options an attribute's named arguments attach |
| `DecoratorSynthesis` | decorator_synthesis.dfy | what both generators emit: candidates, groups, files, members |
| `CacheThisGenerator`, `CacheItGenerator` | cache_this_generator.dfy, cache_it_generator.dfy | the two generators, and the emitted `TupleComparer` |
| `Target`, `GeneratedDecorator` | target.dfy, generated_decorator.dfy | the run-time behaviour of an emitted decorator over its static store |
| `CachingProxy` | caching_proxy.dfy | `CacheAttribute` and `CacheProxy<T>` of the demo |
| `Minus` | minus.dfy | `Compute` and the two Fibonacci builders |
| `RecursiveAnalyzer`, `VirtualAnalyzer` | recursive_analyzer.dfy, virtual_analyzer.dfy | the two analyzers |
| `AttributeSettings` | cache_this_attribute.dfy | `CacheThisAttribute` |
| `ClassList` | class_list.dfy | the class-list generator |

The model leaves some library calls outside. The hash functions, the UTF-8
bytes a `StreamWriter` produces and `double.TryParse` are the fields of a
`Platform` value. What the wrapped object's methods return is the function
`behaviour` of a `Target.Instance`.

Dafny has no static fields, so a static store (`InMemoryCacheStore`, or the
proxy's `_cache`) is an object handed to every decorator, attribute or proxy
that shares it. C# `int` arithmetic marked unchecked is written out with
`Wrap32`.

Two points of the code differ from a natural reading of the design:
- the store of a generated class is static, so all its instances share it;
- the key holds only the method name, not its type or its parameter types.

The model follows the code on both.

## Model

| member | source | states |
|---|---|---|
| `Common.Wrap32` | CacheItLib/SourceGenerators/CacheItGenerator.cs:142-149 | an unchecked `int` result is the exact value modulo 2^32, and in-range values are unchanged |
| `CacheKey.Preimage` | CacheThisLib/SourceGenerators/CacheThisGenerator.cs:76-85 | the pre-image is the method name followed by `;` and each argument's text; with no arguments, or a null array, it is the name alone |
| `CacheKey.PreimageFields` | CacheThisLib/SourceGenerators/CacheThisGenerator.cs:78-84 | without `;` in the name or the argument texts, splitting the pre-image at `;` gives back the name and the texts in order |
| `CacheKey.PreimageInjective` | CacheThisLib/SourceGenerators/CacheThisGenerator.cs:78-84 | without `;` in the name or the texts, equal pre-images mean the same name and the same argument texts |
| `CacheKey.WriteArgsFollowsTexts` | CacheThisLib/SourceGenerators/CacheThisGenerator.cs:80-84 | arguments that print alike give the same pre-image, whatever objects they are |
| `CacheKey.PreimageMergeCollision` | CacheThisLib/SourceGenerators/CacheThisGenerator.cs:80-84 | the separator is not escaped: arguments `x`, `y` collide with one argument printing `x;y`, anywhere in the list |
| `CacheKey.NullArgumentCollisions` | CacheItLib/SourceGenerators/CacheItGenerator.cs:79-83 | a null argument, one whose `ToString()` is null and one printing `""` give the same pre-image, and so do a null and an empty argument array |
| `CacheKey.Hex` | CacheThisLib/SourceGenerators/CacheThisGenerator.cs:149-157 | the rendering has two characters per byte, all lowercase hexadecimal digits |
| `CacheKey.HexRoundTrip` | CacheThisLib/SourceGenerators/CacheThisGenerator.cs:151-156 | reading the rendering back two digits at a time gives the bytes in order |
| `CacheKey.HexInjective` | CacheItLib/SourceGenerators/CacheItGenerator.cs:98-106 | distinct digests render as distinct texts |
| `CacheKey.ByteArrayToHex` | CacheItLib/SourceGenerators/CacheItGenerator.cs:98-106 | the `StringBuilder` loop produces exactly the rendering of the whole array |
| `CacheKey.GenerateCacheKey` | CacheThisLib/SourceGenerators/CacheThisGenerator.cs:70-92 | the key is lowercase hex, two characters per digest byte, and it decodes to the SHA256 digest of the encoded pre-image |
| `CacheKey.KeyFollowsPreimage` | CacheItLib/SourceGenerators/CacheItGenerator.cs:69-91 | calls whose pre-images coincide share a key, whatever the hash function |
| `CacheKey.SelectHashAlgorithm` | CacheThisLib/SourceGenerators/CacheThisGenerator.cs:131-142 | never null; SHA1, SHA384, SHA512 and MD5 are chosen exactly by their case-sensitive names, and every other name gives SHA256 |
| `CacheKey.SelectByName` | CacheThisLib/SourceGenerators/CacheThisGenerator.cs:133-141 | each algorithm's own name selects it |
| `CacheKey.GenerateCacheKeyWith` | CacheThisLib/SourceGenerators/CacheThisGenerator.cs:102-124 | the selectable-algorithm key never raises the unsupported-algorithm exception, and it is lowercase hex of twice the digest's length that decodes to the selected algorithm's digest |
| `CacheKey.DefaultAlgorithmKey` | CacheThisLib/SourceGenerators/CacheThisGenerator.cs:102-106 | with the default name, or any name not recognised, the selectable key equals the SHA256 key the overrides use |
| `EntryOptions.TryGetDoubleFromTypedConstant` | CacheThisLib/SourceGenerators/CacheThisGenerator.cs:249-268 | a double converts as itself and an int is widened; any other constant converts exactly when its text parses; null never converts |
| `EntryOptions.ExtractCacheEntryOptions` | CacheThisLib/SourceGenerators/CacheThisGenerator.cs:230-247 | the loop collects, in argument order, the options each named argument attaches |
| `EntryOptions.OptionEmittedIff` | CacheItLib/SourceGenerators/CacheItGenerator.cs:202-212 | an option is emitted iff some named argument has exactly its key and a convertible value of at least zero |
| `EntryOptions.ZeroKeptNegativeDropped` | CacheThisLib/SourceGenerators/CacheThisGenerator.cs:236-243 | zero seconds is attached, and a negative duration is dropped without error |
| `EntryOptions.ApplyOptions` | CacheThisLib/SourceGenerators/CacheThisGenerator.cs:208-210 | a property of the initializer is set iff some option assigns it, and its value is one of those assigned |
| `DecoratorSynthesis.Candidates` | CacheThisLib/SourceGenerators/CacheThisGenerator.cs:21-34 | a declaration is a candidate iff some attribute's written name contains the generator's marker |
| `DecoratorSynthesis.CandidatesInInputOrder` | CacheThisLib/SourceGenerators/CacheThisGenerator.cs:21-34 | the candidates keep the declarations' order |
| `DecoratorSynthesis.FindAttribute` | CacheThisLib/SourceGenerators/CacheThisGenerator.cs:198-201 | the attribute found is the first whose class text contains the qualified attribute name: every earlier one lacks it; none is found only when no attribute has it |
| `DecoratorSynthesis.GenerateMethodInMemoryCachingCode` | CacheThisLib/SourceGenerators/CacheThisGenerator.cs:192-211 | the override keeps the method's name and return type; its options are the attribute's when it attaches any, the defaults otherwise |
| `DecoratorSynthesis.GenerateMembers` | CacheThisLib/SourceGenerators/CacheThisGenerator.cs:52-62 | the loop gives one member per method of the group, in order: a caching override for a virtual, abstract or override method, a forwarding method otherwise |
| `DecoratorSynthesis.NonNull` | CacheThisLib/SourceGenerators/CacheThisGenerator.cs:45 | exactly the declarations with a symbol are kept |
| `DecoratorSynthesis.NonNullInInputOrder` | CacheThisLib/SourceGenerators/CacheThisGenerator.cs:45 | `Where` keeps the input order of the symbols it keeps |
| `DecoratorSynthesis.GroupKeys` | CacheThisLib/SourceGenerators/CacheThisGenerator.cs:38-46 | each containing type of a kept method appears once, and no other type appears |
| `DecoratorSynthesis.GroupKeysInFirstOccurrenceOrder` | CacheThisLib/SourceGenerators/CacheThisGenerator.cs:38-46 | the keys come in order of first occurrence: for an earlier key, one of its methods precedes every method of a later key |
| `DecoratorSynthesis.GroupOf` | CacheItLib/SourceGenerators/CacheItGenerator.cs:46-51 | a group holds exactly the kept methods of its type |
| `DecoratorSynthesis.GroupOfInInputOrder` | CacheItLib/SourceGenerators/CacheItGenerator.cs:46-51 | a group keeps the input order: any two of its members occur in the input in the same order |
| `DecoratorSynthesis.NamespaceOf` | CacheThisLib/SourceGenerators/CacheThisGenerator.cs:168 | the namespace is a prefix of the qualified name without `.`, and it is either the whole name or followed by `.` |
| `DecoratorSynthesis.Execute` | CacheThisLib/SourceGenerators/CacheThisGenerator.cs:36-189 | the loop over groups adds exactly the expected files, one per group, in group order |
| `DecoratorSynthesis.FilesFollowKeys` | CacheThisLib/SourceGenerators/CacheThisGenerator.cs:48-51 | there is one file per group key, and each file's base type is its key |
| `DecoratorSynthesis.TypeHasKey` | CacheItLib/SourceGenerators/CacheItGenerator.cs:38-46 | a type is a group key iff some kept method belongs to it |
| `DecoratorSynthesis.OneDecoratorPerType` | CacheThisLib/SourceGenerators/CacheThisGenerator.cs:38-51 | a decorator exists for a type iff one of its methods is kept, and no two decorators wrap the same type |
| `DecoratorSynthesis.DecoratorShape` | CacheThisLib/SourceGenerators/CacheThisGenerator.cs:51-62 | the decorator is `<Type>_Cached` in `<Type>_Cached.g.cs`, with one member per method of its type in order; a member caches iff its method is virtual, abstract or override, and then casts to the method's return type |
| `CacheThisGenerator.Execute` | CacheThisLib/SourceGenerators/CacheThisGenerator.cs:159-187 | every CacheThis decorator declares the namespace of its type's first name segment and offers algorithm selection |
| `CacheThisGenerator.NamespaceIsFirstSegment` | CacheThisLib/SourceGenerators/CacheThisGenerator.cs:168 | a type `N.Rest` is placed in namespace `N`, however many segments follow, and a name without `.` is used whole |
| `CacheItGenerator.Execute` | CacheItLib/SourceGenerators/CacheItGenerator.cs:108-155 | every CacheIt decorator declares no namespace, offers no algorithm selection and carries `TupleComparer` |
| `CacheItGenerator.ElementsEqual` | CacheItLib/SourceGenerators/CacheItGenerator.cs:137 | `SequenceEqual` holds iff the lengths agree and the elements agree position by position |
| `CacheItGenerator.Equals` | CacheItLib/SourceGenerators/CacheItGenerator.cs:135-138 | the tuples are equal iff their arrays are; a null first or second array is rejected by name |
| `CacheItGenerator.HashFoldIsWrappedPolynomial` | CacheItLib/SourceGenerators/CacheItGenerator.cs:142-149 | wrapping at each step gives the exact Horner polynomial (start at 17, multiply by 23, add the item hash), reduced to 32 bits once |
| `CacheItGenerator.HashPolynomialClosedForm` | CacheItLib/SourceGenerators/CacheItGenerator.cs:142-149 | that polynomial is 17·23^n plus the sum of itemᵢ·23^(n-1-i) over the n items |
| `CacheItGenerator.GetHashCode` | CacheItLib/SourceGenerators/CacheItGenerator.cs:140-151 | the loop returns that reduced polynomial, with 0 for null items; a null array throws |
| `CacheItGenerator.HashOfShortArrays` | CacheItLib/SourceGenerators/CacheItGenerator.cs:144 | an empty array hashes to 17, and one null element to 391 |
| `CacheItGenerator.EqualTuplesHashAlike` | CacheItLib/SourceGenerators/CacheItGenerator.cs:133-152 | tuples the comparer calls equal have equal hashes |
| `Target.Instance.Invoke` | CacheThisLib/SourceGenerators/CacheThisGenerator.cs:221 | a call of the wrapped instance returns its behaviour and is recorded once |
| `GeneratedDecorator.MemoryStore.TryGetValue` | CacheThisLib/SourceGenerators/CacheThisGenerator.cs:219 | a lookup finds the key iff it is present, a stored null included |
| `GeneratedDecorator.MemoryStore.Set` | CacheThisLib/SourceGenerators/CacheThisGenerator.cs:222 | the entry for the key is replaced by the value and its options, and other entries are kept |
| `GeneratedDecorator.OverrideKey` | CacheThisLib/SourceGenerators/CacheThisGenerator.cs:217 | the override keys on the bare method name and a non-null argument array |
| `GeneratedDecorator.Decorator.constructor` | CacheThisLib/SourceGenerators/CacheThisGenerator.cs:172-179 | a decorator wraps the given instance, null included, and uses its class's static store |
| `GeneratedDecorator.Decorator.Forward` | CacheThisLib/SourceGenerators/CacheThisGenerator.cs:293-305 | a forwarding method calls the same overload of the instance once, with the same arguments, and touches no store; a null instance throws `NullReferenceException` |
| `GeneratedDecorator.Decorator.CachedCall` | CacheThisLib/SourceGenerators/CacheThisGenerator.cs:213-227 | a hit casts the stored value to the return type, without calling the instance; a miss calls the instance once, stores a returned value with the member's options and returns it unchanged, because a value of the declared return type always converts; a failure stores nothing; a miss on a null instance throws `NullReferenceException` and stores nothing |
| `GeneratedDecorator.Decorator.Call` | CacheItLib/SourceGenerators/CacheItGenerator.cs:181-194 | each emitted member behaves as its kind says. A forwarding member calls the method with its own name and parameter types. A cached member does the same on a miss, with its own return type and options, and its result on a miss is the wrapped method's result unchanged |
| `GeneratedDecorator.RepeatedCallHitsStore` | CacheItLib/SourceGenerators/CacheItGenerator.cs:187-193 | the same call made twice gives the same answer; a first call that misses answers with the wrapped method's result. The wrapped method runs at most once when it returns a value, and twice when it throws on a miss |
| `GeneratedDecorator.StoreSharedAcrossInstances` | CacheThisLib/SourceGenerators/CacheThisGenerator.cs:174 | a value returned through one decorator answers another decorator of the class without calling its instance, even a null one |
| `GeneratedDecorator.SameNameSharesEntries` | CacheItLib/SourceGenerators/CacheItGenerator.cs:185-193 | two caching members with the same name share an entry, overloads included, when called with arguments that print alike. The second answers with the first's value cast to its own return type, without calling its own method. With the same return type it gives the same answer; it throws `InvalidCastException` only when the stored value does not convert |
| `CachingProxy.ProxyCacheKey` | CachingExample/Program.cs:25-60 | a null method raises `ArgumentNullException`, and a null declaring type raises `InvalidOperationException`; otherwise the key is the SHA256 hex of `FullName.Name;arg;...` |
| `CachingProxy.TypeSeparatesKeys` | CachingExample/Program.cs:44-46 | methods of the same name in different types get different pre-images, whatever the type names and arguments |
| `CachingProxy.SharedCache.TryGetValue` | CachingExample/Program.cs:80 | a lookup finds the key iff it is present |
| `CachingProxy.SharedCache.TryAdd` | CachingExample/Program.cs:90 | a key is added only when absent, and an existing entry never changes |
| `CachingProxy.FirstWriteWins` | CachingExample/Program.cs:87-91 | of two stores under one key, the first succeeds and stays; the second changes nothing |
| `CachingProxy.CacheAttribute.GetCachedValue` | CachingExample/Program.cs:77-85 | the stored value, or null when the key is absent; key errors propagate |
| `CachingProxy.CacheAttribute.SetCacheValue` | CachingExample/Program.cs:87-91 | the result is stored only when the key is absent; key errors propagate |
| `CachingProxy.CacheProxy.SetDecorated` | CachingExample/Program.cs:121-124 | installs the wrapped object, or null, after which a miss fails as a call on a null target |
| `CachingProxy.CacheProxy.Invoke` | CachingExample/Program.cs:99-119 | covers every path. A null method throws. A non-null cached value is returned without a call. Otherwise the target runs once; its result is offered to the dictionary only when the method has the attribute; a failure of the target arrives wrapped and stores nothing |
| `CachingProxy.NullResultIsRecomputed` | CachingExample/Program.cs:106-118 | a method returning null runs on every call |
| `CachingProxy.ProxiesShareStore` | CachingExample/Program.cs:15 | the dictionary is static: one proxy's stored value answers another proxy without calling its target |
| `Minus.Compute` | CachingExample/Program.cs:176-179 | the 64-bit result is the exact difference of the two `int`s |
| `Minus.TermIsWrappedFib` | CachingExample/Program.cs:200-203 | each term computed with unchecked `int` additions is the true Fibonacci number reduced to 32 bits |
| `Minus.FillFibonacci` | CachingExample/Program.cs:200-203 | the loop fills every position with its term |
| `Minus.GenerateFibonacciSequence` | CachingExample/Program.cs:189-206 | throws `ArgumentException` for n ≤ 0 and fails with an index error for n = 1; for n ≥ 2 it gives the first n terms |
| `Minus.GenerateFibonacciSequenceGuarded` | CachingExample/Program.cs:196-198 | with the second term written only when there is room, every n ≥ 1 gives the first n terms |
| `Minus.FibRecursive` | CachingExample/Program.cs:209-227 | fails exactly for n ≤ 0 (`ArgumentException`), and otherwise gives the first n terms |
| `Minus.FibonacciPrefixUnique` | CachingExample/Program.cs:189-227 | two sequences of n first terms are equal |
| `Minus.BuildersAgree` | CachingExample/Program.cs:217-218 | the builders agree for n ≥ 2; at n = 1 the loop builder fails and the recursive one gives `[0]`; the guarded builder always agrees |
| `RecursiveAnalyzer.AnalyzeMethod` | CacheItLib/CachitRecursiveAnalyser.cs:40-65 | without a symbol nothing is reported; otherwise the loop reports the self-invocations in order |
| `RecursiveAnalyzer.SelfCallDiagnosticsSound` | CacheItLib/CachitRecursiveAnalyser.cs:53-63 | there is one diagnostic per self-invocation, that is, per invocation of the same symbol (same type, name and parameter types). Each is `CacheIt002`, Warning, naming the method at a self-invocation's location; other invocations give none |
| `RecursiveAnalyzer.SelfCallReported` | CacheItLib/CachitRecursiveAnalyser.cs:58-62 | every invocation of the same symbol is reported at its location, whatever the method's attributes |
| `RecursiveAnalyzer.OverloadCallNotReported` | CacheItLib/CachitRecursiveAnalyser.cs:58 | a call of an overload with other parameter types is not reported: the diagnostics are those of the surrounding invocations |
| `VirtualAnalyzer.AnalyzeMethod` | CacheItLib/Analyzers/CacheItVirtualAnalyzer.cs:46-61 | reports at most one diagnostic, and one iff there is a symbol with a `CacheItAttribute` and the method is not virtual; it is `CacheIt001`, Warning, at the identifier, with its text |
| `VirtualAnalyzer.CacheThisNeverWarned` | CacheItLib/Analyzers/CacheItVirtualAnalyzer.cs:54 | a method carrying only `CacheThisAttribute` is never warned |
| `VirtualAnalyzer.WarningDisagreesWithGenerator` | CacheItLib/Analyzers/CacheItVirtualAnalyzer.cs:56 | a warned method still gets a caching override iff it is abstract or an override and not virtual; an unwarned attributed method always gets one |
| `AttributeSettings.CacheThisAttribute.constructor` | CacheItLib/Attributes/CacheThisAttribute.cs:10-17 | the defaults are -1, -1, `"SHA256"` and Normal |
| `AttributeSettings.CacheThisAttribute.GetAbsoluteExpirationRelativeToNow` | CacheItLib/Attributes/CacheThisAttribute.cs:20-25 | gives the setting iff it is at least zero, and nothing otherwise, without error |
| `AttributeSettings.CacheThisAttribute.GetSlidingExpiration` | CacheItLib/Attributes/CacheThisAttribute.cs:27-32 | gives the sliding setting iff it is at least zero, independently of the absolute one |
| `AttributeSettings.DefaultsSetNothing` | CacheItLib/Attributes/CacheThisAttribute.cs:10-12 | a fresh attribute sets neither duration |
| `AttributeSettings.GettersAgreeWithGenerator` | CacheThisLib/SourceGenerators/CacheThisGenerator.cs:236-242 | a duration given as a named argument becomes an option iff the attribute's getter returns it, with the same seconds |
| `ClassList.Execute` | ClassListGenerator/TheGenerator.cs:24-54 | one file `YourClassList.g.cs` lists the quoted names in input order, joined by `",\n    "`; a declaration without a symbol throws |
| `ClassList.ListingRoundTrip` | ClassListGenerator/TheGenerator.cs:36-39 | names without `"` read back from the list exactly and in order, and no names give an empty initializer |

## Left out

- The Roslyn pipeline is not modelled. This covers syntax providers, semantic models, `AddSource` and `ReportDiagnostic`. Declarations, symbols and invocations are plain values, and a generator's output is the list of files it would add.
- The exact text of the emitted source is not modelled. Only what the generators compute is: the class name, hint name, namespace, base type, member kinds, entry options, the parameter types of each member and the return type a cached value is cast to. Parameter names and the comments in the generated code are left out.
- The cryptographic hashes and the UTF-8 encoding, byte-order mark included, are not modelled. Neither is `double.TryParse`. All three are functions of `CacheKey.Platform`, and `ToString()` is the `shown` text of an argument.
- `MemoryCache` expiry and eviction are not modelled. An entry records its options but never expires, so the model shows which options are attached, not when an entry disappears.
- `TimeSpan.FromSeconds` and floating point are not modelled. Seconds are reals.
- Thread safety of `ConcurrentDictionary`, `MemoryCache` and the analyzers' concurrent execution is not modelled.
- `DispatchProxy.Create`, `CacheInterceptor.CreateWithTarget` and `GetCustomAttribute` are not modelled. The attribute's presence is a flag of the method, and reflection's `Invoke` is the wrapped object's `behaviour`.
- A reflective call with the wrong number of arguments is not modelled. The arguments reach the target as given, with a null array taken as empty.
- `CachingProxy.CacheProxy.Invoke` does not model a call on a static method. A null target, before or after `SetDecorated(null)`, is modelled as a `NullTarget` failure.
- The wrapped object's methods are modelled as deterministic, so a method whose result changes between calls is not captured.
- `CachingProxy.CacheProxy.Invoke` computes its key from one immutable argument list. The source computes the key twice, before the call and again after `targetMethod.Invoke`. Reflection writes `ref`/`out` results back into `args`, and the target may change what an argument's `ToString` prints, so a value can be stored under another key than the one looked up. The model does not capture that.
- Cached values are modelled as values. In the source they are references, returned and stored as they are. So an array such as the one `GenerateFibonacciSequence` or `FibRecursive` returns is shared by every later caller, and a caller that changes it changes the cache. The model does not capture that aliasing.
- `CacheItGenerator.EqualTuplesHashAlike` assumes element `Equals` and `GetHashCode` agree. `ElementsEqual` compares elements as values, and the hash of equal values is equal. The comparer itself checks neither: for an element type whose `Equals` and `GetHashCode` disagree, equal tuples can hash differently.
- `GeneratedDecorator.Decorator.CachedCall` reports every failed cast of a stored value as `InvalidCastException`. In C#, unboxing a stored null to a value type throws `NullReferenceException`, and the model does not tell the two apart.
- `GeneratedDecorator.Decorator.Call` assumes the wrapped methods return values of their declared return types (`WellTyped`). C#'s typing guarantees this, so the assumption is about the wrapped object, not the decorator.
- Generic methods and their type arguments are not modelled. A method is identified by its containing type, name and parameter types.
- `CacheItGenerator.Equals` does not model null tuples. Only a null `Item1` is modelled.
- `VirtualAnalyzer.AnalyzeMethod` does not model a null `AttributeClass`. Every attribute has a class name.
- `TryGetPriorityFromTypedConstant` is never called, so it is not modelled.
- The obsolete `Priority` is kept only as a field with its default.
- The CacheIt code fix provider, `Main`, `Plus` and `PlusInternal`, `TitaTest`, `Thread.Sleep` and console output are not modelled.
- A nested type is not modelled. Types are keyed by a value with a simple and a qualified name.
- Two types with the same simple name in different namespaces get the same class and hint name. This is visible in `DecoratorSynthesis.DecoratorShape`, but no rejection by `AddSource` is modelled.
- `CacheItGenerator.Execute` gives every CacheIt file its own `TupleComparer` in the global namespace. With two or more decorated types, the emitted files declare that class more than once, which fails to compile (CS0101). The model records `declaresTupleComparer` per file but not this compile error.
- `GeneratedDecorator.Decorator.Forward` models a call that reaches the forwarding member itself. That member is declared without `override`, so it hides the base method rather than overriding it. A call through a reference of the base type, as the demo's `testc(Minus)` makes, runs the base method on the decorator's own base part, and `_instance` is not called. The model does not capture this binding by static type.

## Findings

| source | as written | input that shows it | evidently intended | confidence | as-written member | corrected member |
|---|---|---|---|---|---|---|
| CachingExample/Program.cs:196-198 | `sequence[1] = 1` is written before the length is known to exceed one | `GenerateFibonacciSequence(1)` indexes past a one-element array and throws, while `FibRecursive(1)` returns `[0]` | one term gives `[0]`, as the recursive builder does | not executed | `Minus.GenerateFibonacciSequence` (with `Minus.BuildersAgree`) | `Minus.GenerateFibonacciSequenceGuarded` |

=== FILE: cache_it_generator.dfy ===
/** The CacheIt source generator: methods whose attribute name mentions
    `CacheIt` are decorated, in files that declare no namespace and carry a
    `TupleComparer` beside the decorator class. The comparer is modelled here:
    element-wise equality of the wrapped arrays and a 32-bit polynomial hash. */
module CacheItGenerator {
  import opened Common
  import opened Symbols
  import opened DecoratorSynthesis

  /** `Execute` over the declarations the syntax provider offers. */
  method Execute(parseDouble: string -> Option<real>, decls: seq<MethodSyntax>) returns (files: seq<GeneratedFile>)
    ensures files == ExpectedFiles(CacheItVariant, parseDouble, Candidates(CacheItVariant, decls))
    ensures forall k :: 0 <= k < |files| ==>
              && files[k].namespace.None?
              && !files[k].selectableHashAlgorithm && files[k].declaresTupleComparer
  {
    var methods := Candidates(CacheItVariant, decls);
    files := DecoratorSynthesis.Execute(CacheItVariant, parseDouble, methods);
    forall k | 0 <= k < |files|
      ensures files[k].namespace.None?
      ensures !files[k].selectableHashAlgorithm && files[k].declaresTupleComparer
    {
      DecoratorShape(CacheItVariant, parseDouble, methods, k);
    }
  }

  // ---------------------------------------------------------------------------
  // TupleComparer

  /** `Tuple<object[]>`: `Item1` may be null and so may each element. */
  datatype Tuple1<T> = Tuple1(item1: Option<seq<Option<T>>>)

  /** `EqualityComparer<object>.Default.Equals` on two elements. */
  function ElementsEqual<T(==)>(a: seq<Option<T>>, b: seq<Option<T>>): (r: bool)
    ensures r <==> |a| == |b| && forall i :: 0 <= i < |a| ==> a[i] == b[i]
  {
    if a == [] || b == [] then a == b
    else a[0] == b[0] && ElementsEqual(a[1..], b[1..])
  }

  /** `Equals(x, y)`: `x.Item1.SequenceEqual(y.Item1)`, which rejects a null
      first or second array. */
  function Equals<T(==)>(x: Tuple1<T>, y: Tuple1<T>): (r: Result<bool, Failure>)
    ensures x.item1.None? ==> r == Err(ArgumentNull("first"))
    ensures x.item1.Some? && y.item1.None? ==> r == Err(ArgumentNull("second"))
    ensures x.item1.Some? && y.item1.Some? ==> r == Ok(x.item1.value == y.item1.value)
  {
    match (x.item1, y.item1)
    case (None, _) => Err(ArgumentNull("first"))
    case (Some(_), None) => Err(ArgumentNull("second"))
    case (Some(a), Some(b)) =>
      var same := ElementsEqual(a, b);
      assert same ==> a == b;
      Ok(same)
  }

  /** `item?.GetHashCode() ?? 0` */
  function ItemHash<T>(hashOf: T -> Int32, item: Option<T>): Int32
  {
    match item
    case None => 0
    case Some(v) => hashOf(v)
  }

  /** The hash after folding `items` from 17: `hash * 23 + item hash`, wrapped
      to 32 bits at every step. */
  function HashFold<T>(hashOf: T -> Int32, items: seq<Option<T>>): Int32
  {
    if items == [] then 17
    else Wrap32(HashFold(hashOf, items[..|items| - 1]) as int * 23 + ItemHash(hashOf, items[|items| - 1]) as int)
  }

  /** The same polynomial computed without wrapping, in Horner form; its
      closed form is `HashPolynomialClosedForm`. */
  function HashPolynomial<T>(hashOf: T -> Int32, items: seq<Option<T>>): int
  {
    if items == [] then 17
    else HashPolynomial(hashOf, items[..|items| - 1]) * 23 + ItemHash(hashOf, items[|items| - 1]) as int
  }

  function Pow23(e: nat): (p: int)
    ensures p >= 1
  {
    if e == 0 then 1 else 23 * Pow23(e - 1)
  }

  /** The sum of item_i * 23^(n-1-i) over the n items. */
  function WeightedItems<T>(hashOf: T -> Int32, items: seq<Option<T>>): int
  {
    if items == [] then 0
    else ItemHash(hashOf, items[0]) as int * Pow23(|items| - 1) + WeightedItems(hashOf, items[1..])
  }

  /** Appending an item multiplies the earlier weights by 23. */
  lemma {:induction false} WeightedItemsSnoc<T>(hashOf: T -> Int32, items: seq<Option<T>>, last: Option<T>)
    ensures WeightedItems(hashOf, items + [last]) == WeightedItems(hashOf, items) * 23 + ItemHash(hashOf, last) as int
    decreases |items|
  {
    var l := ItemHash(hashOf, last) as int;
    if items == [] {
      assert [last][1..] == [];
    } else {
      var x0 := ItemHash(hashOf, items[0]) as int;
      var n := |items|;
      assert (items + [last])[0] == items[0];
      assert (items + [last])[1..] == items[1..] + [last];
      WeightedItemsSnoc(hashOf, items[1..], last);
      var s := WeightedItems(hashOf, items[1..]);
      assert Pow23(n) == 23 * Pow23(n - 1);
      assert x0 * Pow23(n) == x0 * Pow23(n - 1) * 23;
      assert WeightedItems(hashOf, items + [last]) == x0 * Pow23(n - 1) * 23 + s * 23 + l;
    }
  }

  /** The hash polynomial is 17 * 23^n plus the sum of item_i * 23^(n-1-i). */
  lemma {:induction false} HashPolynomialClosedForm<T>(hashOf: T -> Int32, items: seq<Option<T>>)
    ensures HashPolynomial(hashOf, items) == 17 * Pow23(|items|) + WeightedItems(hashOf, items)
    decreases |items|
  {
    if items != [] {
      var init := items[..|items| - 1];
      var last := items[|items| - 1];
      assert init + [last] == items;
      HashPolynomialClosedForm(hashOf, init);
      WeightedItemsSnoc(hashOf, init, last);
      assert 17 * Pow23(|items|) == 17 * Pow23(|init|) * 23;
    }
  }

  /** One step of the fold keeps two values congruent modulo 2^32. */
  lemma CongruentStep(a: int, b: int, h: int)
    requires Congruent32(a, b)
    ensures Congruent32(a * 23 + h, b * 23 + h)
  {
    var k := (a - b) / 0x1_0000_0000;
    assert a - b == 0x1_0000_0000 * k;
    assert (a * 23 + h) - (b * 23 + h) == 0x1_0000_0000 * (23 * k);
  }

  /** Wrapping at every step gives the exact polynomial reduced to 32 bits
      once: the overflow the code allows does not depend on when it happens. */
  lemma {:induction false} HashFoldIsWrappedPolynomial<T>(hashOf: T -> Int32, items: seq<Option<T>>)
    ensures HashFold(hashOf, items) == Wrap32(HashPolynomial(hashOf, items))
  {
    if items != [] {
      var init := items[..|items| - 1];
      var h := ItemHash(hashOf, items[|items| - 1]) as int;
      HashFoldIsWrappedPolynomial(hashOf, init);
      var p := HashPolynomial(hashOf, init);
      CongruentStep(HashFold(hashOf, init) as int, p, h);
      Wrap32Congruent(HashFold(hashOf, init) as int * 23 + h, p * 23 + h);
    }
  }

  /** `GetHashCode(obj)`: the fold in an `unchecked` loop; a null `Item1`
      makes the `foreach` throw. */
  method GetHashCode<T>(hashOf: T -> Int32, obj: Tuple1<T>) returns (r: Result<Int32, Failure>)
    ensures obj.item1.None? ==> r == Err(NullReference)
    ensures obj.item1.Some? ==> r == Ok(Wrap32(HashPolynomial(hashOf, obj.item1.value)))
  {
    if obj.item1.None? {
      return Err(NullReference);
    }
    var items := obj.item1.value;
    var hash: Int32 := 17;
    for i := 0 to |items|
      invariant hash == HashFold(hashOf, items[..i])
    {
      assert items[..i + 1][..i] == items[..i];
      hash := Wrap32(hash as int * 23 + ItemHash(hashOf, items[i]) as int);
    }
    assert items[..|items|] == items;
    HashFoldIsWrappedPolynomial(hashOf, items);
    r := Ok(hash);
  }

  /** An empty array hashes to 17; one null element to 17 * 23. */
  lemma HashOfShortArrays<T>(hashOf: T -> Int32)
    ensures Wrap32(HashPolynomial(hashOf, [])) == 17
    ensures Wrap32(HashPolynomial(hashOf, [None])) == 391
  {
    var one: seq<Option<T>> := [None];
    assert one[..0] == [];
  }

  /** Tuples the comparer calls equal have equal hashes. */
  lemma EqualTuplesHashAlike<T>(hashOf: T -> Int32, x: Tuple1<T>, y: Tuple1<T>)
    requires Equals(x, y) == Ok(true)
    ensures x.item1.Some? && y.item1.Some?
    ensures HashPolynomial(hashOf, x.item1.value) == HashPolynomial(hashOf, y.item1.value)
  {
  }
}

=== FILE: cache_key.dfy ===
/** Cache-key derivation as the generated decorators perform it: the method
    name and the arguments' string forms are written into a pre-image, the
    pre-image is encoded and hashed, and the digest is rendered as lowercase
    hexadecimal text. Hashing and text encoding are library calls outside the
    model and are supplied as the functions of a `Platform`. */
module CacheKey {
  import opened Common

  /** A call argument: null, or an object with an identity and what its
      `ToString()` returns (which may itself be null). Two distinct objects can
      print alike. */
  datatype Arg = Null | Obj(identity: nat, shown: Option<string>)

  datatype HashAlgorithm = SHA256 | SHA1 | SHA384 | SHA512 | MD5

  /** The library calls the key derivation depends on: the bytes a UTF-8
      `StreamWriter` produces for a text, `ComputeHash` of each algorithm and
      `double.TryParse`. */
  datatype Platform = Platform(
    encodeUtf8: string -> seq<byte>,
    computeHash: (HashAlgorithm, seq<byte>) -> seq<byte>,
    parseDouble: string -> Option<real>)

  // ---------------------------------------------------------------------------
  // Pre-image

  /** `arg?.ToString() ?? string.Empty` */
  function ArgText(a: Arg): string
  {
    match a
    case Null => ""
    case Obj(_, None) => ""
    case Obj(_, Some(s)) => s
  }

  /** `args ?? Array.Empty<object?>()` */
  function ArgsOrEmpty(args: Option<seq<Arg>>): seq<Arg>
  {
    match args
    case None => []
    case Some(xs) => xs
  }

  function Texts(args: seq<Arg>): (ts: seq<string>)
    ensures |ts| == |args|
    ensures forall i :: 0 <= i < |args| ==> ts[i] == ArgText(args[i])
  {
    seq(|args|, i requires 0 <= i < |args| => ArgText(args[i]))
  }

  /** What the writer holds after `written` has been written and, for each
      argument in order, a `';'` followed by the argument's text. */
  function WriteArgs(written: string, args: seq<Arg>): string
  {
    if args == [] then written
    else WriteArgs(written, args[..|args| - 1]) + [';'] + ArgText(args[|args| - 1])
  }

  /** Arguments that print alike write the same text, whatever their identity. */
  lemma {:induction false} WriteArgsFollowsTexts(w: string, a1: seq<Arg>, a2: seq<Arg>)
    requires Texts(a1) == Texts(a2)
    ensures WriteArgs(w, a1) == WriteArgs(w, a2)
    decreases |a1|
  {
    if a1 != [] {
      var n := |a1| - 1;
      assert Texts(a1[..n]) == Texts(a2[..n]) by {
        forall i | 0 <= i < n
          ensures Texts(a1[..n])[i] == Texts(a2[..n])[i]
        {
          assert Texts(a1)[i] == Texts(a2)[i];
        }
      }
      WriteArgsFollowsTexts(w, a1[..n], a2[..n]);
      assert Texts(a1)[n] == Texts(a2)[n];
    }
  }

  /** The text hashed into a key: the method name, then `;` and the text of
      each argument. */
  function Preimage(methodName: string, args: Option<seq<Arg>>): (p: string)
    ensures ArgsOrEmpty(args) == [] ==> p == methodName
  {
    WriteArgs(methodName, ArgsOrEmpty(args))
  }

  lemma {:induction false} WriteArgsAppend(w: string, a: seq<Arg>, b: seq<Arg>)
    ensures WriteArgs(w, a + b) == WriteArgs(WriteArgs(w, a), b)
    decreases |b|
  {
    if b == [] {
      assert a + b == a;
    } else {
      var b' := b[..|b| - 1];
      assert (a + b)[..|a + b| - 1] == a + b';
      assert (a + b)[|a + b| - 1] == b[|b| - 1];
      WriteArgsAppend(w, a, b');
    }
  }

  /** When neither the name nor any argument text holds a `;`, the pre-image
      splits back into the name followed by the argument texts. */
  lemma {:induction false} PreimageFields(methodName: string, args: seq<Arg>)
    requires ';' !in methodName
    requires forall i :: 0 <= i < |args| ==> ';' !in ArgText(args[i])
    ensures Split(WriteArgs(methodName, args), ';') == [methodName] + Texts(args)
    decreases |args|
  {
    if args == [] {
      SplitWithout(methodName, ';');
    } else {
      var init := args[..|args| - 1];
      PreimageFields(methodName, init);
      SplitAppendField(WriteArgs(methodName, init), ArgText(args[|args| - 1]), ';');
      assert Texts(args) == Texts(init) + [ArgText(args[|args| - 1])];
    }
  }

  /** Without `;` in the name or the argument texts, equal pre-images mean the
      same name and the same argument texts. */
  lemma PreimageInjective(n1: string, a1: seq<Arg>, n2: string, a2: seq<Arg>)
    requires ';' !in n1 && ';' !in n2
    requires forall i :: 0 <= i < |a1| ==> ';' !in ArgText(a1[i])
    requires forall i :: 0 <= i < |a2| ==> ';' !in ArgText(a2[i])
    requires Preimage(n1, Some(a1)) == Preimage(n2, Some(a2))
    ensures n1 == n2 && Texts(a1) == Texts(a2)
  {
    PreimageFields(n1, a1);
    PreimageFields(n2, a2);
    assert ([n1] + Texts(a1))[1..] == Texts(a1);
    assert ([n2] + Texts(a2))[1..] == Texts(a2);
  }

  /** The separator is not escaped: two neighbouring arguments `x`, `y` give the
      same pre-image as one argument whose text is `x;y`, wherever they stand. */
  lemma {:induction false} PreimageMergeCollision(methodName: string, xs: seq<Arg>, x: Arg, y: Arg, merged: Arg, ys: seq<Arg>)
    requires ArgText(merged) == ArgText(x) + ";" + ArgText(y)
    ensures Preimage(methodName, Some(xs + [x, y] + ys)) == Preimage(methodName, Some(xs + [merged] + ys))
  {
    var w := WriteArgs(methodName, xs);
    var pair := WriteArgs(methodName, xs + [x, y]);
    var single := WriteArgs(methodName, xs + [merged]);
    calc {
      pair;
      { WriteArgsAppend(methodName, xs, [x, y]); }
      WriteArgs(w, [x, y]);
      { assert [x, y][..1] == [x]; }
      WriteArgs(w, [x]) + [';'] + ArgText(y);
      { assert [x][..0] == []; }
      w + [';'] + ArgText(x) + [';'] + ArgText(y);
      w + [';'] + ArgText(merged);
      { assert [merged][..0] == []; }
      WriteArgs(w, [merged]);
      { WriteArgsAppend(methodName, xs, [merged]); }
      single;
    }
    WriteArgsAppend(methodName, xs + [x, y], ys);
    WriteArgsAppend(methodName, xs + [merged], ys);
  }

  /** A null argument, an argument whose `ToString()` is null and one that
      prints as the empty string are indistinguishable; so are a null argument
      array and an empty one. */
  lemma NullArgumentCollisions(methodName: string, id: nat)
    ensures Preimage(methodName, Some([Null])) == Preimage(methodName, Some([Obj(id, Some(""))]))
    ensures Preimage(methodName, Some([Obj(id, None)])) == Preimage(methodName, Some([Null]))
    ensures Preimage(methodName, None) == Preimage(methodName, Some([])) == methodName
  {
    assert [Null][..0] == [Obj(id, Some(""))][..0] == [Obj(id, None)][..0] == [];
  }

  // ---------------------------------------------------------------------------
  // Hexadecimal rendering

  predicate IsLowerHexDigit(c: char) {
    '0' <= c <= '9' || 'a' <= c <= 'f'
  }

  /** `n.ToString("x")` for one nibble. */
  function HexDigit(n: int): (c: char)
    requires 0 <= n < 16
    ensures IsLowerHexDigit(c)
  {
    if n < 10 then ('0' as int + n) as char else ('a' as int + n - 10) as char
  }

  /** The nibble a lowercase hexadecimal digit stands for. */
  function DigitValue(c: char): (n: int)
    ensures 0 <= n < 16
  {
    if '0' <= c <= '9' then c as int - '0' as int
    else if 'a' <= c <= 'f' then c as int - 'a' as int + 10
    else 0
  }

  /** `b.ToString("x2")`: the high nibble, then the low nibble. */
  function HexByte(b: byte): string
  {
    [HexDigit(b as int / 16), HexDigit(b as int % 16)]
  }

  /** The text a `StringBuilder` holds after appending `HexByte` of each byte
      in order. */
  function Hex(bytes: seq<byte>): (s: string)
    ensures |s| == 2 * |bytes|
    ensures forall i :: 0 <= i < |s| ==> IsLowerHexDigit(s[i])
  {
    if bytes == [] then ""
    else Hex(bytes[..|bytes| - 1]) + HexByte(bytes[|bytes| - 1])
  }

  /** Reads a hexadecimal text back into bytes, two digits per byte. */
  function Unhex(s: string): seq<byte>
  {
    if |s| < 2 then []
    else Unhex(s[..|s| - 2]) + [(16 * DigitValue(s[|s| - 2]) + DigitValue(s[|s| - 1])) as byte]
  }

  /** Reading back the two digits of one byte gives the byte. */
  lemma ByteRoundTrip(b: byte)
    ensures (16 * DigitValue(HexByte(b)[0]) + DigitValue(HexByte(b)[1])) as byte == b
  {
    var hi, lo := b as int / 16, b as int % 16;
    assert DigitValue(HexDigit(hi)) == hi;
    assert DigitValue(HexDigit(lo)) == lo;
  }

  /** Rendering and reading back give the bytes in order. */
  lemma {:induction false} HexRoundTrip(bytes: seq<byte>)
    ensures Unhex(Hex(bytes)) == bytes
  {
    if bytes != [] {
      var init, b := bytes[..|bytes| - 1], bytes[|bytes| - 1];
      HexRoundTrip(init);
      var s := Hex(bytes);
      assert s == Hex(init) + HexByte(b);
      assert s[..|s| - 2] == Hex(init);
      ByteRoundTrip(b);
      assert init + [b] == bytes;
    }
  }

  /** Distinct digests render as distinct keys. */
  lemma HexInjective(a: seq<byte>, b: seq<byte>)
    requires Hex(a) == Hex(b)
    ensures a == b
  {
    HexRoundTrip(a);
    HexRoundTrip(b);
  }

  /** The emitted `ByteArrayToHexViaStringBuilder`. */
  method ByteArrayToHex(bytes: array<byte>) returns (s: string)
    ensures s == Hex(bytes[..])
  {
    s := "";
    var i := 0;
    while i < bytes.Length
      invariant 0 <= i <= bytes.Length
      invariant s == Hex(bytes[..i])
    {
      assert bytes[..i + 1][..i] == bytes[..i];
      s := s + HexByte(bytes[i]);
      i := i + 1;
    }
    assert bytes[..i] == bytes[..];
  }

  // ---------------------------------------------------------------------------
  // Keys

  /** The two-argument `GenerateCacheKey` emitted by both generators: always
      SHA256. */
  function GenerateCacheKey(p: Platform, methodName: string, args: Option<seq<Arg>>): (key: string)
    ensures Unhex(key) == p.computeHash(SHA256, p.encodeUtf8(Preimage(methodName, args)))
    ensures |key| == 2 * |p.computeHash(SHA256, p.encodeUtf8(Preimage(methodName, args)))|
    ensures forall i :: 0 <= i < |key| ==> IsLowerHexDigit(key[i])
  {
    var digest := p.computeHash(SHA256, p.encodeUtf8(Preimage(methodName, args)));
    HexRoundTrip(digest);
    Hex(digest)
  }

  /** Calls whose pre-images coincide share a key, whatever the hash. */
  lemma KeyFollowsPreimage(p: Platform, n1: string, a1: Option<seq<Arg>>, n2: string, a2: Option<seq<Arg>>)
    requires Preimage(n1, a1) == Preimage(n2, a2)
    ensures GenerateCacheKey(p, n1, a1) == GenerateCacheKey(p, n2, a2)
  {
  }

  function AlgorithmName(a: HashAlgorithm): string
  {
    match a
    case SHA256 => "SHA256"
    case SHA1 => "SHA1"
    case SHA384 => "SHA384"
    case SHA512 => "SHA512"
    case MD5 => "MD5"
  }

  /** The emitted `SelectHashAlgorithm`: an exact, case-sensitive match on the
      five names, SHA256 for every other name; never null. */
  function SelectHashAlgorithm(name: string): (r: Option<HashAlgorithm>)
    ensures r.Some?
    ensures forall a :: a != SHA256 ==> (r == Some(a) <==> name == AlgorithmName(a))
    ensures r == Some(SHA256) <==> name !in {"SHA1", "SHA384", "SHA512", "MD5"}
  {
    match name
    case "SHA256" => Some(SHA256)
    case "SHA1" => Some(SHA1)
    case "SHA384" => Some(SHA384)
    case "SHA512" => Some(SHA512)
    case "MD5" => Some(MD5)
    case _ => Some(SHA256)
  }

  /** Each name selects its own algorithm. */
  lemma SelectByName(a: HashAlgorithm)
    ensures SelectHashAlgorithm(AlgorithmName(a)) == Some(a)
  {
  }

  /** The three-argument `GenerateCacheKey` of the CacheThis decorator. Its
      "unsupported algorithm" exception cannot be raised. */
  function GenerateCacheKeyWith(p: Platform, methodName: string, args: Option<seq<Arg>>, hashAlgorithmName: string): (r: Result<string, Failure>)
    ensures r.Ok?
    ensures Unhex(r.value) == p.computeHash(SelectHashAlgorithm(hashAlgorithmName).value, p.encodeUtf8(Preimage(methodName, args)))
    ensures |r.value| == 2 * |p.computeHash(SelectHashAlgorithm(hashAlgorithmName).value, p.encodeUtf8(Preimage(methodName, args)))|
  {
    match SelectHashAlgorithm(hashAlgorithmName)
    case None => Err(ArgumentError)
    case Some(alg) =>
      var digest := p.computeHash(alg, p.encodeUtf8(Preimage(methodName, args)));
      HexRoundTrip(digest);
      Ok(Hex(digest))
  }

  /** With the default name, or any name it does not recognise, the selectable
      key equals the SHA256 key the cached overrides use. */
  lemma DefaultAlgorithmKey(p: Platform, methodName: string, args: Option<seq<Arg>>, hashAlgorithmName: string)
    requires hashAlgorithmName !in {"SHA1", "SHA384", "SHA512", "MD5"}
    ensures GenerateCacheKeyWith(p, methodName, args, hashAlgorithmName) == Ok(GenerateCacheKey(p, methodName, args))
  {
  }
}

=== FILE: cache_this_attribute.dfy ===
/** `CacheThisAttribute`: the settings a method's caching attribute carries.
    Durations are seconds, with -1 meaning "not set"; a getter turns a setting
    into a duration only when it is at least zero. */
module AttributeSettings {
  import opened Common
  import opened Symbols
  import opened EntryOptions

  datatype CacheItemPriority = Low | Normal | High | NeverRemove

  class CacheThisAttribute {
    var absoluteExpirationRelativeToNow: real
    var slidingExpirationInSeconds: real
    var hashingMethod: string
    var priority: CacheItemPriority

    /** The property initializers. */
    constructor ()
      ensures absoluteExpirationRelativeToNow == -1.0 && slidingExpirationInSeconds == -1.0
      ensures hashingMethod == "SHA256" && priority == Normal
    {
      absoluteExpirationRelativeToNow := -1.0;
      slidingExpirationInSeconds := -1.0;
      hashingMethod := "SHA256";
      priority := Normal;
    }

    /** `GetAbsoluteExpirationRelativeToNow()`, in seconds. */
    function GetAbsoluteExpirationRelativeToNow(): (r: Option<real>)
      reads this
      ensures r.Some? <==> absoluteExpirationRelativeToNow >= 0.0
      ensures r.Some? ==> r.value == absoluteExpirationRelativeToNow
    {
      if absoluteExpirationRelativeToNow >= 0.0 then Some(absoluteExpirationRelativeToNow) else None
    }

    /** `GetSlidingExpiration()`, in seconds. */
    function GetSlidingExpiration(): (r: Option<real>)
      reads this
      ensures r.Some? <==> slidingExpirationInSeconds >= 0.0
      ensures r.Some? ==> r.value == slidingExpirationInSeconds
    {
      if slidingExpirationInSeconds >= 0.0 then Some(slidingExpirationInSeconds) else None
    }
  }

  /** A fresh attribute sets neither duration. */
  method DefaultsSetNothing() returns (absolute: Option<real>, sliding: Option<real>)
    ensures absolute == None && sliding == None
  {
    var attribute := new CacheThisAttribute();
    absolute := attribute.GetAbsoluteExpirationRelativeToNow();
    sliding := attribute.GetSlidingExpiration();
  }

  /** The generators apply the attribute's rule: a duration written as a
      named argument becomes an entry option exactly when the attribute's own
      getter would return it. */
  lemma GettersAgreeWithGenerator(parseDouble: string -> Option<real>, attribute: CacheThisAttribute)
    ensures var absolute := [NamedArgument(ABSOLUTE_KEY, DoubleConstant(attribute.absoluteExpirationRelativeToNow))];
            var options := ExpectedOptions(parseDouble, absolute);
            && (attribute.GetAbsoluteExpirationRelativeToNow().Some? <==> options != [])
            && (options != [] ==> options == [AbsoluteExpirationRelativeToNow(attribute.GetAbsoluteExpirationRelativeToNow().value)])
    ensures var sliding := [NamedArgument(SLIDING_KEY, DoubleConstant(attribute.slidingExpirationInSeconds))];
            var options := ExpectedOptions(parseDouble, sliding);
            && (attribute.GetSlidingExpiration().Some? <==> options != [])
            && (options != [] ==> options == [SlidingExpiration(attribute.GetSlidingExpiration().value)])
  {
    var absolute := [NamedArgument(ABSOLUTE_KEY, DoubleConstant(attribute.absoluteExpirationRelativeToNow))];
    var sliding := [NamedArgument(SLIDING_KEY, DoubleConstant(attribute.slidingExpirationInSeconds))];
    assert absolute[..0] == [] && sliding[..0] == [];
  }
}

=== FILE: cache_this_generator.dfy ===
/** The CacheThis source generator: methods whose attribute name mentions
    `CacheThis` are decorated; each decorator lives in the namespace formed by
    the first segment of its type's qualified name and can derive keys with a
    selectable hash algorithm. */
module CacheThisGenerator {
  import opened Common
  import opened Symbols
  import opened DecoratorSynthesis

  /** `Execute` over the declarations the syntax provider offers. */
  method Execute(parseDouble: string -> Option<real>, decls: seq<MethodSyntax>) returns (files: seq<GeneratedFile>)
    ensures files == ExpectedFiles(CacheThisVariant, parseDouble, Candidates(CacheThisVariant, decls))
    ensures forall k :: 0 <= k < |files| ==>
              && files[k].namespace == Some(NamespaceOf(files[k].baseType.display))
              && files[k].selectableHashAlgorithm && !files[k].declaresTupleComparer
  {
    var methods := Candidates(CacheThisVariant, decls);
    files := DecoratorSynthesis.Execute(CacheThisVariant, parseDouble, methods);
    forall k | 0 <= k < |files|
      ensures files[k].namespace == Some(NamespaceOf(files[k].baseType.display))
      ensures files[k].selectableHashAlgorithm && !files[k].declaresTupleComparer
    {
      DecoratorShape(CacheThisVariant, parseDouble, methods, k);
    }
  }

  /** A type `N.Rest` is put in namespace `N`, the segment before the first
      `.`, however many segments follow; a name without `.` is used whole. */
  lemma NamespaceIsFirstSegment(ns: string, rest: string)
    requires '.' !in ns
    ensures NamespaceOf(ns + ['.'] + rest) == ns
    ensures NamespaceOf(ns) == ns
  {
    var s := ns + ['.'] + rest;
    assert s[|ns|] == '.';
    SplitWithout(ns, '.');
  }
}

=== FILE: caching_proxy.dfy ===
/** The demo's run-time caching proxy. `CacheAttribute` keys a call on the
    declaring type's full name, the method name and the argument texts, and
    keeps values in one static dictionary that only ever gains entries: a
    key's first stored value stays. `CacheProxy` answers a call from that
    dictionary when the method carries the attribute and a non-null value is
    stored, and otherwise invokes the wrapped object and offers the result to
    the dictionary. A stored null therefore never answers a call. */
module CachingProxy {
  import opened Common
  import opened CacheKey
  import opened Target

  /** `Type`, reduced to its `FullName`, which may be null. */
  datatype TypeInfo = TypeInfo(fullName: Option<string>)

  /** `MethodInfo`: its name, its parameter types, its declaring type (null
      for some methods) and whether `GetCustomAttribute<CacheAttribute>()`
      finds the attribute. Overloads differ in their parameter types. */
  datatype MethodInfo = MethodInfo(name: string, parameterTypes: seq<string>, declaringType: Option<TypeInfo>, hasCacheAttribute: bool)

  /** What the key writer receives first: `FullName`, then `.`, then the
      method name; a null `FullName` writes nothing. */
  function QualifiedName(declaringType: TypeInfo, name: string): string
  {
    (match declaringType.fullName case None => "" case Some(n) => n) + "." + name
  }

  /** `CacheAttribute.GenerateCacheKey`. */
  function ProxyCacheKey(p: Platform, targetMethod: Option<MethodInfo>, args: Option<seq<Arg>>): (r: Result<string, Failure>)
    ensures targetMethod.None? ==> r == Err(ArgumentNull("method"))
    ensures targetMethod.Some? && targetMethod.value.declaringType.None? ==> r == Err(InvalidOperation)
    ensures targetMethod.Some? && targetMethod.value.declaringType.Some? ==>
              && r.Ok?
              && Unhex(r.value) == p.computeHash(SHA256, p.encodeUtf8(Preimage(QualifiedName(targetMethod.value.declaringType.value, targetMethod.value.name), args)))
              && |r.value| == 2 * |p.computeHash(SHA256, p.encodeUtf8(Preimage(QualifiedName(targetMethod.value.declaringType.value, targetMethod.value.name), args)))|
              && forall i :: 0 <= i < |r.value| ==> IsLowerHexDigit(r.value[i])
  {
    match targetMethod
    case None => Err(ArgumentNull("method"))
    case Some(m) =>
      match m.declaringType
      case None => Err(InvalidOperation)
      case Some(t) => Ok(GenerateCacheKey(p, QualifiedName(t, m.name), args))
  }

  /** Methods of different types with the same name get different pre-images,
      unlike the generated decorators' keys: both pre-images end in the same
      text, so they differ wherever the type names do. */
  lemma {:induction false} TypeSeparatesKeys(t1: string, t2: string, name: string, args: Option<seq<Arg>>)
    requires t1 != t2
    ensures Preimage(QualifiedName(TypeInfo(Some(t1)), name), args) != Preimage(QualifiedName(TypeInfo(Some(t2)), name), args)
  {
    var xs := ArgsOrEmpty(args);
    var tail := "." + name;
    WriteArgsSuffix(t1 + tail, xs);
    WriteArgsSuffix(t2 + tail, xs);
    var rest := tail + WriteArgs("", xs);
    assert QualifiedName(TypeInfo(Some(t1)), name) == t1 + tail;
    assert QualifiedName(TypeInfo(Some(t2)), name) == t2 + tail;
    assert (t1 + tail) + WriteArgs("", xs) == t1 + rest;
    assert (t2 + tail) + WriteArgs("", xs) == t2 + rest;
    assert Preimage(QualifiedName(TypeInfo(Some(t1)), name), args) == t1 + rest;
    assert Preimage(QualifiedName(TypeInfo(Some(t2)), name), args) == t2 + rest;
    assert (t1 + rest)[..|t1|] == t1;
    assert (t2 + rest)[..|t2|] == t2;
  }

  /** What the arguments add to a pre-image does not depend on what was
      written before them. */
  lemma {:induction false} WriteArgsSuffix(w: string, xs: seq<Arg>)
    ensures WriteArgs(w, xs) == w + WriteArgs("", xs)
    decreases |xs|
  {
    if xs != [] {
      WriteArgsSuffix(w, xs[..|xs| - 1]);
    }
  }

  /** `_cache`: the static dictionary every `CacheAttribute` shares. Values are
      nullable. */
  class SharedCache<V> {
    var entries: map<string, Option<V>>

    constructor ()
      ensures entries == map[]
    {
      entries := map[];
    }

    /** `TryGetValue(key, out value)`: whether the key is present and, if so,
        its value. */
    method TryGetValue(key: string) returns (found: bool, value: Option<V>)
      ensures found <==> key in entries
      ensures found ==> value == entries[key]
      ensures !found ==> value == None
    {
      found := key in entries;
      value := if found then entries[key] else None;
    }

    /** `TryAdd(key, value)`: adds only an absent key. */
    method TryAdd(key: string, value: Option<V>) returns (added: bool)
      modifies this
      ensures added <==> key !in old(entries)
      ensures entries == if added then old(entries)[key := value] else old(entries)
    {
      added := key !in entries;
      if added {
        entries := entries[key := value];
      }
    }
  }

  /** The entry a successful `TryAdd` leaves in place: the first write wins. */
  method FirstWriteWins<V>(cache: SharedCache<V>, key: string, v1: Option<V>, v2: Option<V>)
    returns (added1: bool, added2: bool)
    requires key !in cache.entries
    modifies cache
    ensures added1 && !added2
    ensures cache.entries == old(cache.entries)[key := v1]
  {
    added1 := cache.TryAdd(key, v1);
    added2 := cache.TryAdd(key, v2);
  }

  /** An instance of `CacheAttribute`; all instances share `cache`. */
  class CacheAttribute<V> {
    const cache: SharedCache<V>
    const platform: Platform

    constructor (cache: SharedCache<V>, platform: Platform)
      ensures this.cache == cache && this.platform == platform
    {
      this.cache := cache;
      this.platform := platform;
    }

    /** `GetCachedValue`: the stored value, or null when the key is absent. */
    method GetCachedValue(targetMethod: Option<MethodInfo>, args: Option<seq<Arg>>) returns (r: Result<Option<V>, Failure>)
      ensures ProxyCacheKey(platform, targetMethod, args).Err? ==> r == Err(ProxyCacheKey(platform, targetMethod, args).error)
      ensures ProxyCacheKey(platform, targetMethod, args).Ok? ==>
                var key := ProxyCacheKey(platform, targetMethod, args).value;
                r == Ok(if key in cache.entries then cache.entries[key] else None)
    {
      var key := ProxyCacheKey(platform, targetMethod, args);
      if key.Err? {
        return Err(key.error);
      }
      var found, value := cache.TryGetValue(key.value);
      if found {
        return Ok(value);
      }
      return Ok(None);
    }

    /** `SetCacheValue`: `TryAdd` under the call's key. */
    method SetCacheValue(targetMethod: Option<MethodInfo>, args: Option<seq<Arg>>, result: Option<V>) returns (r: Result<(), Failure>)
      modifies cache
      ensures ProxyCacheKey(platform, targetMethod, args).Err? ==>
                r == Err(ProxyCacheKey(platform, targetMethod, args).error) && cache.entries == old(cache.entries)
      ensures ProxyCacheKey(platform, targetMethod, args).Ok? ==>
                var key := ProxyCacheKey(platform, targetMethod, args).value;
                && r == Ok(())
                && cache.entries == if key in old(cache.entries) then old(cache.entries)
                                    else old(cache.entries)[key := result]
    {
      var key := ProxyCacheKey(platform, targetMethod, args);
      if key.Err? {
        return Err(key.error);
      }
      var _ := cache.TryAdd(key.value, result);
      return Ok(());
    }
  }

  /** `CacheProxy<T>`: `decorated` is the object `SetDecorated` installed, null
      until then. */
  class CacheProxy<V> {
    var decorated: Option<Instance<MethodInfo, Option<V>>>
    const attribute: CacheAttribute<V>

    constructor (attribute: CacheAttribute<V>)
      ensures this.attribute == attribute && decorated == None
    {
      this.attribute := attribute;
      decorated := None;
    }

    /** `SetDecorated(decorated)`: installs the wrapped object, or null
        (`None`), which sends later misses to the null-target failure. */
    method SetDecorated(d: Option<Instance<MethodInfo, Option<V>>>)
      modifies this`decorated
      ensures decorated == d
    {
      decorated := d;
    }

    /** `Invoke(targetMethod, args)`. The wrapped method runs unless the
        method carries the attribute and a non-null value is stored for the
        call; after it runs, its result is offered to the dictionary. A
        failure of the wrapped method reaches the caller wrapped, and leaves
        the dictionary unchanged. */
    method Invoke(targetMethod: Option<MethodInfo>, args: Option<seq<Arg>>) returns (r: Result<Option<V>, Failure>)
      modifies attribute.cache, if decorated.Some? then {decorated.value} else {}
      ensures targetMethod.None? ==> r == Err(ArgumentNull("targetMethod")) && attribute.cache.entries == old(attribute.cache.entries)
      ensures targetMethod.Some? ==>
                var m := targetMethod.value;
                var key := ProxyCacheKey(attribute.platform, targetMethod, args);
                var cached := m.hasCacheAttribute && key.Ok? && key.value in old(attribute.cache.entries)
                              && old(attribute.cache.entries)[key.value].Some?;
                if m.hasCacheAttribute && key.Err? then
                  r == Err(key.error) && attribute.cache.entries == old(attribute.cache.entries)
                else if cached then
                  && r == Ok(old(attribute.cache.entries)[key.value])
                  && attribute.cache.entries == old(attribute.cache.entries)
                  && (decorated.Some? ==> decorated.value.calls == old(decorated.value.calls))
                else if decorated.None? then
                  r == Err(NullTarget) && attribute.cache.entries == old(attribute.cache.entries)
                else
                  var target := decorated.value;
                  var outcome := target.behaviour(m, ArgsOrEmpty(args));
                  && target.calls == old(target.calls) + [Call(m, ArgsOrEmpty(args))]
                  && (outcome.Err? ==> r == Err(TargetInvocation(outcome.error))
                                       && attribute.cache.entries == old(attribute.cache.entries))
                  && (outcome.Ok? ==> r == outcome
                                      && attribute.cache.entries ==
                                         if m.hasCacheAttribute && key.value !in old(attribute.cache.entries)
                                         then old(attribute.cache.entries)[key.value := outcome.value]
                                         else old(attribute.cache.entries))
    {
      if targetMethod.None? {
        return Err(ArgumentNull("targetMethod"));
      }
      var m := targetMethod.value;
      if m.hasCacheAttribute {
        var cachedValue := attribute.GetCachedValue(targetMethod, args);
        if cachedValue.Err? {
          return Err(cachedValue.error);
        }
        if cachedValue.value.Some? {
          return Ok(cachedValue.value);
        }
      }
      if decorated.None? {
        return Err(NullTarget);
      }
      var result := decorated.value.Invoke(m, ArgsOrEmpty(args));
      if result.Err? {
        return Err(TargetInvocation(result.error));
      }
      if m.hasCacheAttribute {
        var _ := attribute.SetCacheValue(targetMethod, args, result.value);
      }
      return Ok(result.value);
    }
  }

  /** A method whose result is null is recomputed on every call, and the
      first null stays the stored entry. */
  method NullResultIsRecomputed<V>(proxy: CacheProxy<V>, m: MethodInfo, args: Option<seq<Arg>>)
    returns (first: Result<Option<V>, Failure>, second: Result<Option<V>, Failure>)
    requires m.hasCacheAttribute && m.declaringType.Some?
    requires proxy.decorated.Some?
    requires proxy.decorated.value.behaviour(m, ArgsOrEmpty(args)) == Ok(None)
    requires ProxyCacheKey(proxy.attribute.platform, Some(m), args).value !in proxy.attribute.cache.entries
    modifies proxy.attribute.cache, proxy.decorated.value
    ensures first == second == Ok(None)
    ensures |proxy.decorated.value.calls| == |old(proxy.decorated.value.calls)| + 2
  {
    first := proxy.Invoke(Some(m), args);
    second := proxy.Invoke(Some(m), args);
  }

  /** Two proxies sharing the static dictionary: a value the first stored
      answers the second without invoking its wrapped object. */
  method ProxiesShareStore<V>(p1: CacheProxy<V>, p2: CacheProxy<V>, m: MethodInfo, args: Option<seq<Arg>>)
    returns (first: Result<Option<V>, Failure>, second: Result<Option<V>, Failure>)
    requires p1.attribute.cache == p2.attribute.cache && p1.attribute.platform == p2.attribute.platform
    requires m.hasCacheAttribute && m.declaringType.Some?
    requires p1.decorated.Some? && p2.decorated.Some? && p1.decorated != p2.decorated
    requires ProxyCacheKey(p1.attribute.platform, Some(m), args).value !in p1.attribute.cache.entries
    modifies p1.attribute.cache, p1.decorated.value, p2.decorated.value
    ensures first.Ok? && first.value.Some? ==>
              second == first && p2.decorated.value.calls == old(p2.decorated.value.calls)
  {
    first := p1.Invoke(Some(m), args);
    second := p2.Invoke(Some(m), args);
  }
}

=== FILE: class_list.dfy ===
/** The class-list generator: every class declaration's display name, in
    input order, is written between double quotes into a list initializer,
    one name per line, in a single file `YourClassList.g.cs`. Names are not
    escaped; C# display names hold no double quote, and for such names the
    list reads back as exactly the input names. */
module ClassList {
  import opened Common

  const HINT_NAME: string := "YourClassList.g.cs"
  /** What `string.Join` puts between two entries. */
  const SEPARATOR: string := ",\n    "

  /** The one file the generator adds: its hint name and the text placed
      inside the list initializer. */
  datatype GeneratedSource = GeneratedSource(hintName: string, names: string)

  /** `$"\"{name}\""` */
  function Quote(name: string): string
  {
    ['"'] + name + ['"']
  }

  function QuotedAll(names: seq<string>): (quoted: seq<string>)
    ensures |quoted| == |names|
    ensures forall i :: 0 <= i < |names| ==> quoted[i] == Quote(names[i])
  {
    seq(|names|, i requires 0 <= i < |names| => Quote(names[i]))
  }

  /** The initializer body for `names`. */
  function Listing(names: seq<string>): string
  {
    Join(QuotedAll(names), SEPARATOR)
  }

  /** The display names, when every declaration has a symbol. */
  function DisplayNames(classes: seq<Option<string>>): seq<string>
    requires forall i :: 0 <= i < |classes| ==> classes[i].Some?
  {
    seq(|classes|, i requires 0 <= i < |classes| => classes[i].value)
  }

  /** `Execute`: quotes each class's display name in order and joins them; a
      declaration without a symbol makes `symbol.ToDisplayString()` throw. */
  method Execute(classes: seq<Option<string>>) returns (r: Result<GeneratedSource, Failure>)
    ensures r.Err? <==> exists i :: 0 <= i < |classes| && classes[i].None?
    ensures r.Err? ==> r.error == NullReference
    ensures r.Ok? ==> r.value == GeneratedSource(HINT_NAME, Listing(DisplayNames(classes)))
  {
    var nameList: seq<string> := [];
    for i := 0 to |classes|
      invariant |nameList| == i
      invariant forall j :: 0 <= j < i ==> classes[j].Some? && nameList[j] == Quote(classes[j].value)
    {
      if classes[i].None? {
        return Err(NullReference);
      }
      nameList := nameList + [Quote(classes[i].value)];
    }
    assert nameList == QuotedAll(DisplayNames(classes));
    var names := Join(nameList, SEPARATOR);
    r := Ok(GeneratedSource(HINT_NAME, names));
  }

  /** The fields at odd positions of the text split at double quotes: what
      stands between each opening and closing quote. */
  function ListedNames(initializer: string): (names: seq<string>)
  {
    var fields := Split(initializer, '"');
    seq(|fields| / 2, k requires 0 <= k < |fields| / 2 => fields[2 * k + 1])
  }

  /** Quote-free text appended after an empty last field becomes that field. */
  lemma AppendToEmptyField(l: string, sep: string)
    requires '"' !in sep
    requires var f := Split(l, '"'); f[|f| - 1] == ""
    ensures var f := Split(l, '"'); Split(l + sep, '"') == f[..|f| - 1] + [sep]
  {
    var f := Split(l, '"');
    SplitAppendPlain(l, sep, '"');
    assert f[|f| - 1] + sep == sep;
  }

  /** A quoted quote-free name adds the name and a new empty field. */
  lemma AppendQuoted(a: string, n: string)
    requires '"' !in n
    ensures Split(a + Quote(n), '"') == Split(a, '"') + [n, ""]
  {
    SplitAppendField(a, n, '"');
    SplitAppendField(a + ['"'] + n, [], '"');
    assert a + Quote(n) == a + ['"'] + n + ['"'] + [];
  }

  /** Appending a quote-free separator and one more quoted entry to text
      whose last field is empty replaces that field by the separator, the
      name and a new empty field. */
  lemma ListingExtend(l: string, sep: string, n: string)
    requires '"' !in sep && '"' !in n
    requires var f := Split(l, '"'); f[|f| - 1] == ""
    ensures var f := Split(l, '"');
            Split(l + sep + Quote(n), '"') == f[..|f| - 1] + [sep, n, ""]
  {
    AppendToEmptyField(l, sep);
    AppendQuoted(l + sep, n);
  }

  /** The listing of several names is the listing of all but the last, the
      separator and the last name quoted. */
  lemma ListingSnoc(names: seq<string>)
    requires |names| >= 2
    ensures Listing(names) == Listing(names[..|names| - 1]) + SEPARATOR + Quote(names[|names| - 1])
  {
    assert QuotedAll(names)[..|names| - 1] == QuotedAll(names[..|names| - 1]);
  }

  /** Replacing the empty last field by a separator, a name and a new empty
      field keeps the names at the odd positions and adds the new one. */
  lemma FieldsExtend(f: seq<string>, init: seq<string>, sep: string, n: string)
    requires |f| == 2 * |init| + 1
    requires forall k :: 0 <= k < |init| ==> f[2 * k + 1] == init[k]
    ensures var f', names := f[..|f| - 1] + [sep, n, ""], init + [n];
            && |f'| == 2 * |names| + 1 && f'[|f'| - 1] == ""
            && forall k :: 0 <= k < |names| ==> f'[2 * k + 1] == names[k]
  {
  }

  /** The listing splits at double quotes into empty or separator fields
      around each name, in order. */
  lemma {:induction false} ListingFields(names: seq<string>)
    requires |names| >= 1
    requires forall i :: 0 <= i < |names| ==> '"' !in names[i]
    ensures var f := Split(Listing(names), '"');
            && |f| == 2 * |names| + 1 && f[|f| - 1] == ""
            && forall k :: 0 <= k < |names| ==> f[2 * k + 1] == names[k]
  {
    var n := names[|names| - 1];
    if |names| == 1 {
      ListingSingle(n);
      assert names == [n];
    } else {
      var init := names[..|names| - 1];
      assert forall i :: 0 <= i < |init| ==> '"' !in init[i];
      ListingFields(init);
      var f := Split(Listing(init), '"');
      ListingStep(names);
      FieldsExtend(f, init, SEPARATOR, n);
      assert names == init + [n];
    }
  }

  /** One name gives an empty field, the name and an empty field. */
  lemma ListingSingle(n: string)
    requires '"' !in n
    ensures Split(Listing([n]), '"') == ["", n, ""]
  {
    AppendQuoted([], n);
    assert Listing([n]) == [] + Quote(n);
  }

  /** The fields of a listing of several names, from those of all but the
      last name. */
  lemma ListingStep(names: seq<string>)
    requires |names| >= 2 && '"' !in names[|names| - 1]
    requires var f := Split(Listing(names[..|names| - 1]), '"'); f[|f| - 1] == ""
    ensures var f := Split(Listing(names[..|names| - 1]), '"');
            Split(Listing(names), '"') == f[..|f| - 1] + [SEPARATOR, names[|names| - 1], ""]
  {
    assert '"' !in SEPARATOR;
    ListingSnoc(names);
    ListingExtend(Listing(names[..|names| - 1]), SEPARATOR, names[|names| - 1]);
  }

  /** The list reads back as the input names, in order; no names give an
      empty initializer. */
  lemma ListingRoundTrip(names: seq<string>)
    requires forall i :: 0 <= i < |names| ==> '"' !in names[i]
    ensures ListedNames(Listing(names)) == names
    ensures names == [] ==> Listing(names) == ""
  {
    if names != [] {
      ListingFields(names);
    }
  }
}

=== FILE: common.dfy ===
/** Values shared by every part of the model: optional and failing results,
    the exceptions the modelled code raises, the C# integer widths with their
    wrap-around, and the few string operations the generators rely on
    (splitting on one character, joining with a separator, substring test). */
module Common {

  datatype Option<+T> = None | Some(value: T)

  datatype Result<+T, +E> = Ok(value: T) | Err(error: E)

  /** The exceptions raised or let through by the modelled code. */
  datatype Failure =
    | ArgumentNull(paramName: string)   // ArgumentNullException
    | InvalidOperation                  // InvalidOperationException
    | ArgumentError                     // ArgumentException
    | IndexOutOfRange                   // IndexOutOfRangeException
    | InvalidCast                       // InvalidCastException
    | NullReference                     // NullReferenceException
    | NullTarget                        // TargetException: reflection call on a null instance
    | TargetInvocation(inner: Failure)  // TargetInvocationException around the callee's exception
    | Thrown(code: int)                 // an exception raised by user code


  newtype byte = x: int | 0 <= x < 256
  newtype Int32 = x: int | -0x8000_0000 <= x < 0x8000_0000
  newtype Int64 = x: int | -0x8000_0000_0000_0000 <= x < 0x8000_0000_0000_0000

  /** `a` and `b` denote the same 32-bit two's-complement value. */
  predicate Congruent32(a: int, b: int) {
    (a - b) % 0x1_0000_0000 == 0
  }

  /** The result of an unchecked C# `int` operation whose exact value is `x`. */
  function Wrap32(x: int): (r: Int32)
    ensures Congruent32(r as int, x)
    ensures -0x8000_0000 <= x < 0x8000_0000 ==> r as int == x
  {
    var q := (x + 0x8000_0000) / 0x1_0000_0000;
    assert (x + 0x8000_0000) % 0x1_0000_0000 == x + 0x8000_0000 - 0x1_0000_0000 * q;
    (((x + 0x8000_0000) % 0x1_0000_0000) - 0x8000_0000) as Int32
  }

  /** Wrap-around depends only on the value modulo 2^32. */
  lemma {:induction false} Wrap32Congruent(x: int, y: int)
    requires Congruent32(x, y)
    ensures Wrap32(x) == Wrap32(y)
  {
    var rx, ry := Wrap32(x) as int, Wrap32(y) as int;
    var d := rx - ry;
    var k := (rx - x) / 0x1_0000_0000;
    var l := (x - y) / 0x1_0000_0000;
    var m := (y - ry) / 0x1_0000_0000;
    assert rx - x == 0x1_0000_0000 * k;
    assert x - y == 0x1_0000_0000 * l;
    assert y - ry == 0x1_0000_0000 * m;
    assert d == 0x1_0000_0000 * (k + l + m);
    assert -0x1_0000_0000 < d < 0x1_0000_0000;
    assert k + l + m == 0;
  }

  /** Congruence modulo 2^32 is kept by addition. */
  lemma CongruentAdd(a: int, x: int, b: int, y: int)
    requires Congruent32(a, x) && Congruent32(b, y)
    ensures Congruent32(a + b, x + y)
  {
    var k, l := (a - x) / 0x1_0000_0000, (b - y) / 0x1_0000_0000;
    assert (a + b) - (x + y) == 0x1_0000_0000 * (k + l);
  }

  /** Congruence modulo 2^32 is transitive. */
  lemma CongruentTrans(a: int, b: int, c: int)
    requires Congruent32(a, b) && Congruent32(b, c)
    ensures Congruent32(a, c)
  {
    var k, l := (a - b) / 0x1_0000_0000, (b - c) / 0x1_0000_0000;
    assert a - c == 0x1_0000_0000 * (k + l);
  }

  /** The fields of `s` between occurrences of `sep`, as C#'s `string.Split(sep)`
      returns them: an empty string gives one empty field. */
  function Split(s: string, sep: char): (fields: seq<string>)
    ensures |fields| >= 1
    decreases |s|
  {
    if s == [] then [""]
    else
      var init := Split(s[..|s| - 1], sep);
      if s[|s| - 1] == sep then init + [""]
      else init[..|init| - 1] + [init[|init| - 1] + [s[|s| - 1]]]
  }

  /** Appending one character other than the separator extends the last
      field. */
  lemma SplitAppendChar(s: string, c: char, sep: char)
    requires c != sep
    ensures var g := Split(s, sep); Split(s + [c], sep) == g[..|g| - 1] + [g[|g| - 1] + [c]]
  {
    assert (s + [c])[..|s + [c]| - 1] == s;
  }

  /** One more character after separator-free text `t'` extends the last
      field by it. */
  lemma SplitAppendStep(a: string, t': string, c: char, sep: char, f: seq<string>, g: seq<string>)
    requires c != sep && f == Split(a, sep) && g == Split(a + t', sep)
    requires g == f[..|f| - 1] + [f[|f| - 1] + t']
    ensures Split(a + (t' + [c]), sep) == f[..|f| - 1] + [f[|f| - 1] + (t' + [c])]
  {
    SplitAppendChar(a + t', c, sep);
    assert a + (t' + [c]) == (a + t') + [c];
    assert g[..|g| - 1] == f[..|f| - 1];
    assert g[|g| - 1] + [c] == f[|f| - 1] + (t' + [c]);
  }

  /** Appending text free of the separator extends the last field only. */
  lemma {:induction false} SplitAppendPlain(a: string, t: string, sep: char)
    requires sep !in t
    ensures var f := Split(a, sep);
            Split(a + t, sep) == f[..|f| - 1] + [f[|f| - 1] + t]
    decreases |t|
  {
    var f := Split(a, sep);
    if t == [] {
      assert a + t == a;
      assert f[|f| - 1] + t == f[|f| - 1];
      assert f[..|f| - 1] + [f[|f| - 1]] == f;
    } else {
      var t', c := t[..|t| - 1], t[|t| - 1];
      assert t' + [c] == t;
      assert sep !in t' by { assert forall i | 0 <= i < |t'| :: t'[i] == t[i]; }
      SplitAppendPlain(a, t', sep);
      SplitAppendStep(a, t', c, sep, f, Split(a + t', sep));
    }
  }

  /** A separator followed by separator-free text adds exactly one field. */
  lemma {:induction false} SplitAppendField(a: string, t: string, sep: char)
    requires sep !in t
    ensures Split(a + [sep] + t, sep) == Split(a, sep) + [t]
  {
    assert (a + [sep])[..|a + [sep]| - 1] == a;
    assert Split(a + [sep], sep) == Split(a, sep) + [""];
    SplitAppendPlain(a + [sep], t, sep);
    assert [] + t == t;
  }

  /** Text without a separator is a single field. */
  lemma {:induction false} SplitWithout(t: string, sep: char)
    requires sep !in t
    ensures Split(t, sep) == [t]
  {
    SplitAppendPlain([], t, sep);
    assert [] + t == t;
  }

  /** The first field is the prefix of `s` before its first separator, or all of
      `s` when it holds none. */
  lemma {:induction false} SplitFirstField(s: string, sep: char)
    ensures var f := Split(s, sep)[0];
            sep !in f && f <= s && (f == s || s[|f|] == sep)
    ensures |Split(s, sep)| == 1 <==> sep !in s
    decreases |s|
  {
    if s != [] {
      var s' := s[..|s| - 1];
      SplitFirstField(s', sep);
      assert s' + [s[|s| - 1]] == s;
      if s[|s| - 1] != sep && sep !in s' {
        assert Split(s', sep) == [s'];
      }
    }
  }

  /** `string.Join(sep, xs)`: the items with `sep` between neighbours and no
      trailing separator. */
  function Join(xs: seq<string>, sep: string): string
  {
    if |xs| == 0 then ""
    else if |xs| == 1 then xs[0]
    else Join(xs[..|xs| - 1], sep) + sep + xs[|xs| - 1]
  }

  /** `s.Contains(sub)`, ordinal comparison. */
  predicate Contains(s: string, sub: string) {
    exists i | 0 <= i <= |s| - |sub| :: OccursAt(s, sub, i)
  }

  predicate OccursAt(s: string, sub: string, i: int)
    requires 0 <= i <= |s| - |sub|
  {
    s[i..i + |sub|] == sub
  }
}

=== FILE: decorator_synthesis.dfy ===
/** The part of both source generators that decides what is emitted: the
    annotated methods whose symbols resolve are grouped by containing type; one
    decorator class `<Type>_Cached` is produced per group, in a file named after
    it; each method becomes a caching override when it can be overridden and a
    plain forwarding method otherwise. The two generators differ only in the
    attribute they look for, in whether a namespace is declared, and in the
    helpers the file carries; `GeneratorVariant` names the two. */
module DecoratorSynthesis {
  import opened Common
  import opened Symbols
  import opened EntryOptions

  datatype GeneratorVariant = CacheThisVariant | CacheItVariant

  /** The text `GenerateMethodInMemoryCachingCode` searches for in
      `AttributeClass.ToString()`. */
  function AttributeName(variant: GeneratorVariant): string
  {
    match variant
    case CacheThisVariant => "CacheThisLib.CacheThisAttribute"
    case CacheItVariant => "CacheCowLib.CacheItAttribute"
  }

  /** A member of the emitted decorator class, declared with the name and
      parameter types of the method it wraps; a caching override casts what
      it returns to `returnType`. */
  datatype GeneratedMember =
    | CachingOverride(name: string, parameterTypes: seq<string>, returnType: string, options: MemoryCacheEntryOptions)
    | Forwarding(name: string, parameterTypes: seq<string>)
  {
    /** The method of the wrapped instance this member calls. */
    function Callee(): Signature
    {
      Signature(name, parameterTypes)
    }
  }

  /** One emitted source file: its hint name, the file-scoped namespace (if
      any), the decorator class, the type it derives from and wraps, its
      members, and which helpers it carries besides the two-argument
      `GenerateCacheKey`. */
  datatype GeneratedFile = GeneratedFile(
    hintName: string,
    namespace: Option<string>,
    className: string,
    baseType: TypeSymbol,
    members: seq<GeneratedMember>,
    selectableHashAlgorithm: bool,
    declaresTupleComparer: bool)

  /** `IsVirtual || IsAbstract || IsOverride` */
  predicate IsOverridable(m: MethodSymbol)
  {
    m.isVirtual || m.isAbstract || m.isOverride
  }

  /** `FirstOrDefault(a => a.AttributeClass.ToString().Contains(name))` */
  function FindAttribute(attributes: seq<AttributeData>, name: string): (r: Option<AttributeData>)
    ensures r.Some? ==> exists i :: 0 <= i < |attributes| && attributes[i] == r.value && Contains(r.value.classDisplay, name) &&
                          forall j :: 0 <= j < i ==> !Contains(attributes[j].classDisplay, name)
    ensures r.None? ==> forall i :: 0 <= i < |attributes| ==> !Contains(attributes[i].classDisplay, name)
  {
    if attributes == [] then None
    else if Contains(attributes[0].classDisplay, name) then Some(attributes[0])
    else
      var r := FindAttribute(attributes[1..], name);
      assert forall i :: 1 <= i < |attributes| ==> attributes[i] == attributes[1..][i - 1];
      if r.Some? then
        var i :| 0 <= i < |attributes[1..]| && attributes[1..][i] == r.value && Contains(r.value.classDisplay, name) &&
                 forall j :: 0 <= j < i ==> !Contains(attributes[1..][j].classDisplay, name);
        assert attributes[i + 1] == r.value;
        r
      else r
  }

  /** The entry options the override of `m` passes to `Set`. */
  function EntryOptionsFor(variant: GeneratorVariant, parseDouble: string -> Option<real>, m: MethodSymbol): MemoryCacheEntryOptions
  {
    match FindAttribute(m.attributes, AttributeName(variant))
    case None => DEFAULT_ENTRY_OPTIONS
    case Some(a) => ApplyOptions(ExpectedOptions(parseDouble, a.namedArguments))
  }

  /** What the generator emits for one annotated method. */
  function MemberFor(variant: GeneratorVariant, parseDouble: string -> Option<real>, m: MethodSymbol): GeneratedMember
  {
    if IsOverridable(m) then CachingOverride(m.name, m.parameterTypes, m.returnType, EntryOptionsFor(variant, parseDouble, m))
    else Forwarding(m.name, m.parameterTypes)
  }

  /** `GenerateMethodInMemoryCachingCode`: looks up the caching attribute and,
      when it attaches any option, uses those options instead of the defaults. */
  method GenerateMethodInMemoryCachingCode(variant: GeneratorVariant, parseDouble: string -> Option<real>, m: MethodSymbol)
    returns (g: GeneratedMember)
    ensures g.CachingOverride? && g.name == m.name && g.parameterTypes == m.parameterTypes && g.returnType == m.returnType
    ensures g.options == EntryOptionsFor(variant, parseDouble, m)
    ensures g.options.absoluteExpirationRelativeToNow.Some? ==>
              exists a :: a in m.attributes && Contains(a.classDisplay, AttributeName(variant))
  {
    var optionsCode := DEFAULT_ENTRY_OPTIONS;
    var cacheAttribute := FindAttribute(m.attributes, AttributeName(variant));
    if cacheAttribute.Some? {
      var optionsList := ExtractCacheEntryOptions(parseDouble, cacheAttribute.value);
      if |optionsList| > 0 {
        optionsCode := ApplyOptions(optionsList);
      }
    }
    g := CachingOverride(m.name, m.parameterTypes, m.returnType, optionsCode);
  }

  // ---------------------------------------------------------------------------
  // Candidate methods

  /** A method declaration the syntax provider offers: the names of its
      attributes as written in the source, and the symbol the semantic model
      declares for it, when it has one. */
  datatype MethodSyntax = MethodSyntax(attributeNames: seq<string>, symbol: Option<MethodSymbol>)

  /** The text each generator looks for in an attribute's written name. */
  function SyntaxMarker(variant: GeneratorVariant): string
  {
    match variant
    case CacheThisVariant => "CacheThis"
    case CacheItVariant => "CacheIt"
  }

  /** The syntax filter: some attribute's written name contains the marker. */
  predicate HasCacheAttribute(variant: GeneratorVariant, d: MethodSyntax)
  {
    exists i :: 0 <= i < |d.attributeNames| && Contains(d.attributeNames[i], SyntaxMarker(variant))
  }

  /** The declarations that pass the syntax filter, in order, as the symbols
      `Execute` receives for them. */
  function Candidates(variant: GeneratorVariant, decls: seq<MethodSyntax>): (methods: seq<Option<MethodSymbol>>)
    ensures |methods| <= |decls|
    ensures forall m :: m in methods <==>
              exists i :: 0 <= i < |decls| && HasCacheAttribute(variant, decls[i]) && decls[i].symbol == m
  {
    if decls == [] then []
    else
      var init := decls[..|decls| - 1];
      var d := decls[|decls| - 1];
      assert forall i :: 0 <= i < |init| ==> init[i] == decls[i];
      Candidates(variant, init) + (if HasCacheAttribute(variant, d) then [d.symbol] else [])
  }

  /** The filter keeps the declarations' order: any two candidates come
      from declarations in the same order. */
  lemma {:induction false} CandidatesInInputOrder(variant: GeneratorVariant, decls: seq<MethodSyntax>, a: nat, b: nat)
    requires a < b < |Candidates(variant, decls)|
    ensures exists ia, ib :: 0 <= ia < ib < |decls| &&
              decls[ia].symbol == Candidates(variant, decls)[a] && decls[ib].symbol == Candidates(variant, decls)[b]
    decreases |decls|
  {
    var init := decls[..|decls| - 1];
    var d := decls[|decls| - 1];
    var ci := Candidates(variant, init);
    var c := Candidates(variant, decls);
    assert c == ci || c == ci + [d.symbol];
    assert forall j :: 0 <= j < |init| ==> decls[j] == init[j];
    if b < |ci| {
      assert c[a] == ci[a] && c[b] == ci[b];
      CandidatesInInputOrder(variant, init, a, b);
      var ia, ib :| 0 <= ia < ib < |init| && init[ia].symbol == ci[a] && init[ib].symbol == ci[b];
      assert decls[ia] == init[ia] && decls[ib] == init[ib];
    } else {
      assert c[a] == ci[a] && ci[a] in ci && c[b] == d.symbol;
      var ia :| 0 <= ia < |init| && HasCacheAttribute(variant, init[ia]) && init[ia].symbol == c[a];
      assert decls[ia] == init[ia];
    }
  }

  // ---------------------------------------------------------------------------
  // Grouping

  /** `Where(x => x.Symbol != null)` */
  function NonNull(methods: seq<Option<MethodSymbol>>): (syms: seq<MethodSymbol>)
    ensures forall m :: m in syms <==> Some(m) in methods
  {
    if methods == [] then []
    else
      var init := methods[..|methods| - 1];
      assert methods == init + [methods[|methods| - 1]];
      NonNull(init) + (match methods[|methods| - 1] case None => [] case Some(m) => [m])
  }

  /** `Where` keeps the input order: any two kept symbols occur in the input
      in the same order. */
  lemma {:induction false} NonNullInInputOrder(methods: seq<Option<MethodSymbol>>, a: nat, b: nat)
    requires a < b < |NonNull(methods)|
    ensures exists ia, ib :: 0 <= ia < ib < |methods| &&
              methods[ia] == Some(NonNull(methods)[a]) && methods[ib] == Some(NonNull(methods)[b])
    decreases |methods|
  {
    var init := methods[..|methods| - 1];
    var last := methods[|methods| - 1];
    var ni := NonNull(init);
    var n := NonNull(methods);
    assert n == ni || (last.Some? && n == ni + [last.value]);
    assert forall j :: 0 <= j < |init| ==> methods[j] == init[j];
    if b < |ni| {
      assert n[a] == ni[a] && n[b] == ni[b];
      NonNullInInputOrder(init, a, b);
      var ia, ib :| 0 <= ia < ib < |init| && init[ia] == Some(ni[a]) && init[ib] == Some(ni[b]);
      assert methods[ia] == init[ia] && methods[ib] == init[ib];
    } else {
      assert n[a] == ni[a] && ni[a] in ni && Some(n[b]) == last;
      var ia :| 0 <= ia < |init| && init[ia] == Some(n[a]);
      assert methods[ia] == init[ia];
    }
  }

  /** The keys of `GroupBy(x => x.Symbol.ContainingType)`: each containing
      type once, in order of first occurrence. */
  function GroupKeys(syms: seq<MethodSymbol>): (keys: seq<TypeSymbol>)
    ensures forall t :: t in keys <==> exists i :: 0 <= i < |syms| && syms[i].containingType == t
    ensures forall i, j :: 0 <= i < j < |keys| ==> keys[i] != keys[j]
  {
    if syms == [] then []
    else
      var init := syms[..|syms| - 1];
      var t := syms[|syms| - 1].containingType;
      var k := GroupKeys(init);
      assert forall i :: 0 <= i < |init| ==> init[i] == syms[i];
      if t in k then k else k + [t]
  }

  /** Some method of type `t` comes before every method of type `u`. */
  predicate OccursBefore(syms: seq<MethodSymbol>, t: TypeSymbol, u: TypeSymbol)
  {
    exists i :: 0 <= i < |syms| && syms[i].containingType == t &&
      forall j :: 0 <= j < i ==> syms[j].containingType != u
  }

  /** The keys come in order of first occurrence: an earlier key's type
      occurs before any method of a later key's type. */
  lemma {:induction false} GroupKeysInFirstOccurrenceOrder(syms: seq<MethodSymbol>, a: nat, b: nat)
    requires a < b < |GroupKeys(syms)|
    ensures OccursBefore(syms, GroupKeys(syms)[a], GroupKeys(syms)[b])
    decreases |syms|
  {
    var init := syms[..|syms| - 1];
    var t := syms[|syms| - 1].containingType;
    var k := GroupKeys(init);
    var keys := GroupKeys(syms);
    assert keys == k || keys == k + [t];
    assert forall j :: 0 <= j < |init| ==> syms[j] == init[j];
    if b < |k| {
      assert keys[a] == k[a] && keys[b] == k[b];
      GroupKeysInFirstOccurrenceOrder(init, a, b);
      var i :| 0 <= i < |init| && init[i].containingType == k[a] &&
               forall j :: 0 <= j < i ==> init[j].containingType != k[b];
      assert syms[i] == init[i];
    } else {
      assert keys[b] == t && t !in k && keys[a] == k[a] && k[a] in k;
      var i :| 0 <= i < |init| && init[i].containingType == k[a];
      assert syms[i] == init[i];
      assert forall j :: 0 <= j < |init| ==> init[j].containingType in k;
    }
  }

  /** The group of `t`: its methods in input order. */
  function GroupOf(syms: seq<MethodSymbol>, t: TypeSymbol): (g: seq<MethodSymbol>)
    ensures forall j :: 0 <= j < |g| ==> g[j].containingType == t
    ensures forall m :: m in g <==> m in syms && m.containingType == t
  {
    if syms == [] then []
    else
      var init := syms[..|syms| - 1];
      var m := syms[|syms| - 1];
      assert syms == init + [m];
      GroupOf(init, t) + (if m.containingType == t then [m] else [])
  }

  /** A group keeps the input order: each pair of its members is found in
      the input in the same order. */
  lemma {:induction false} GroupOfInInputOrder(syms: seq<MethodSymbol>, t: TypeSymbol, a: nat, b: nat)
    requires a < b < |GroupOf(syms, t)|
    ensures exists ia, ib :: 0 <= ia < ib < |syms| && syms[ia] == GroupOf(syms, t)[a] && syms[ib] == GroupOf(syms, t)[b]
    decreases |syms|
  {
    var init := syms[..|syms| - 1];
    var m := syms[|syms| - 1];
    var gi := GroupOf(init, t);
    var g := GroupOf(syms, t);
    assert g == gi || g == gi + [m];
    if b < |gi| {
      assert g[a] == gi[a] && g[b] == gi[b];
      GroupOfInInputOrder(init, t, a, b);
      var ia, ib :| 0 <= ia < ib < |init| && init[ia] == gi[a] && init[ib] == gi[b];
      assert syms[ia] == init[ia] && syms[ib] == init[ib];
    } else {
      assert g[a] == gi[a] && g[a] in gi && g[b] == m;
      var ia :| 0 <= ia < |init| && init[ia] == g[a];
      assert syms[ia] == init[ia];
      assert syms[|syms| - 1] == g[b];
    }
  }

  /** `group.Key.ToString().Split('.').FirstOrDefault()`: the qualified name
      up to its first `.`, or all of it when there is none. */
  function NamespaceOf(display: string): (ns: string)
    ensures '.' !in ns && ns <= display
    ensures ns == display || display[|ns|] == '.'
  {
    SplitFirstField(display, '.');
    Split(display, '.')[0]
  }

  /** The members of one decorator: one per method of the group, in order. */
  function MembersFor(variant: GeneratorVariant, parseDouble: string -> Option<real>, group: seq<MethodSymbol>): (members: seq<GeneratedMember>)
    ensures |members| == |group|
    ensures forall j :: 0 <= j < |group| ==> members[j] == MemberFor(variant, parseDouble, group[j])
  {
    seq(|group|, j requires 0 <= j < |group| => MemberFor(variant, parseDouble, group[j]))
  }

  function FileFor(variant: GeneratorVariant, parseDouble: string -> Option<real>, key: TypeSymbol, group: seq<MethodSymbol>): GeneratedFile
  {
    var className := key.name + "_Cached";
    GeneratedFile(
      className + ".g.cs",
      if variant == CacheThisVariant then Some(NamespaceOf(key.display)) else None,
      className,
      key,
      MembersFor(variant, parseDouble, group),
      variant == CacheThisVariant,
      variant == CacheItVariant)
  }

  /** The files `Execute` adds, one per group, in group order. */
  function ExpectedFiles(variant: GeneratorVariant, parseDouble: string -> Option<real>, methods: seq<Option<MethodSymbol>>): seq<GeneratedFile>
  {
    var syms := NonNull(methods);
    var keys := GroupKeys(syms);
    seq(|keys|, i requires 0 <= i < |keys| => FileFor(variant, parseDouble, keys[i], GroupOf(syms, keys[i])))
  }

  /** `group.Select(...)`: a caching override for each virtual, abstract or
      override method, a forwarding method for every other one. */
  method GenerateMembers(variant: GeneratorVariant, parseDouble: string -> Option<real>, group: seq<MethodSymbol>)
    returns (cachedMethods: seq<GeneratedMember>)
    ensures cachedMethods == MembersFor(variant, parseDouble, group)
  {
    cachedMethods := [];
    for j := 0 to |group|
      invariant |cachedMethods| == j
      invariant forall k :: 0 <= k < j ==> cachedMethods[k] == MemberFor(variant, parseDouble, group[k])
    {
      var x := group[j];
      var member;
      if x.isVirtual || x.isAbstract || x.isOverride {
        member := GenerateMethodInMemoryCachingCode(variant, parseDouble, x);
      } else {
        member := Forwarding(x.name, x.parameterTypes);
      }
      cachedMethods := cachedMethods + [member];
    }
  }

  /** `Execute`: one pass over the groups, building each decorator's members
      and adding its source file. */
  method Execute(variant: GeneratorVariant, parseDouble: string -> Option<real>, methods: seq<Option<MethodSymbol>>)
    returns (files: seq<GeneratedFile>)
    ensures files == ExpectedFiles(variant, parseDouble, methods)
  {
    var symbols := NonNull(methods);
    var groupedByClass := GroupKeys(symbols);
    ghost var expected := ExpectedFiles(variant, parseDouble, methods);
    files := [];
    for i := 0 to |groupedByClass|
      invariant |files| == i
      invariant forall k :: 0 <= k < i ==> files[k] == expected[k]
    {
      var key := groupedByClass[i];
      var group := GroupOf(symbols, key);
      var className := key.name + "_Cached";
      var cachedMethods := GenerateMembers(variant, parseDouble, group);
      var namespace := if variant == CacheThisVariant then Some(NamespaceOf(key.display)) else None;
      var file := GeneratedFile(className + ".g.cs", namespace, className, key, cachedMethods,
                                variant == CacheThisVariant, variant == CacheItVariant);
      assert file == expected[i];
      files := files + [file];
    }
  }

  /** The decorators follow the group keys, one file per key. */
  lemma FilesFollowKeys(variant: GeneratorVariant, parseDouble: string -> Option<real>, methods: seq<Option<MethodSymbol>>)
    ensures var files := ExpectedFiles(variant, parseDouble, methods);
            var keys := GroupKeys(NonNull(methods));
            |files| == |keys| && forall k :: 0 <= k < |files| ==> files[k].baseType == keys[k]
  {
  }

  /** A type is a group key exactly when some annotated method with a symbol
      belongs to it. */
  lemma TypeHasKey(methods: seq<Option<MethodSymbol>>, t: TypeSymbol)
    ensures t in GroupKeys(NonNull(methods)) <==> exists m :: Some(m) in methods && m.containingType == t
  {
    var syms := NonNull(methods);
    if exists m :: Some(m) in methods && m.containingType == t {
      var m :| Some(m) in methods && m.containingType == t;
      assert m in syms;
      var i :| 0 <= i < |syms| && syms[i] == m;
    }
    if t in GroupKeys(syms) {
      var i :| 0 <= i < |syms| && syms[i].containingType == t;
      assert syms[i] in syms;
    }
  }

  /** Exactly one decorator per containing type that has an annotated method
      with a symbol, and none for any other type. */
  lemma OneDecoratorPerType(variant: GeneratorVariant, parseDouble: string -> Option<real>, methods: seq<Option<MethodSymbol>>, t: TypeSymbol)
    ensures var files := ExpectedFiles(variant, parseDouble, methods);
            && ((exists k :: 0 <= k < |files| && files[k].baseType == t)
                <==> exists m :: Some(m) in methods && m.containingType == t)
            && forall k1, k2 :: 0 <= k1 < k2 < |files| ==> files[k1].baseType != files[k2].baseType
  {
    var files := ExpectedFiles(variant, parseDouble, methods);
    var keys := GroupKeys(NonNull(methods));
    FilesFollowKeys(variant, parseDouble, methods);
    TypeHasKey(methods, t);
    assert (exists k :: 0 <= k < |files| && files[k].baseType == t) <==> t in keys by {
      if t in keys {
        var k :| 0 <= k < |keys| && keys[k] == t;
        assert files[k].baseType == t;
      }
    }
  }

  /** Each decorator is named `<Type>_Cached` in `<Type>_Cached.g.cs`, holds
      one member per annotated method of its type in input order, and that
      member caches exactly when the method is virtual, abstract or an
      override. The CacheThis file declares the namespace before the first
      `.` of the type's name and offers algorithm selection; the CacheIt file
      declares no namespace and carries `TupleComparer`. */
  lemma DecoratorShape(variant: GeneratorVariant, parseDouble: string -> Option<real>, methods: seq<Option<MethodSymbol>>, k: nat)
    requires k < |ExpectedFiles(variant, parseDouble, methods)|
    ensures var f := ExpectedFiles(variant, parseDouble, methods)[k];
            var group := GroupOf(NonNull(methods), f.baseType);
            && f.className == f.baseType.name + "_Cached"
            && f.hintName == f.baseType.name + "_Cached.g.cs"
            && (variant == CacheThisVariant ==> f.namespace == Some(NamespaceOf(f.baseType.display)) && f.selectableHashAlgorithm && !f.declaresTupleComparer)
            && (variant == CacheItVariant ==> f.namespace.None? && !f.selectableHashAlgorithm && f.declaresTupleComparer)
            && |f.members| == |group|
            && forall j :: 0 <= j < |group| ==>
                 && f.members[j].Callee() == Signature(group[j].name, group[j].parameterTypes)
                 && (f.members[j].CachingOverride? <==> IsOverridable(group[j]))
                 && (f.members[j].CachingOverride? ==> f.members[j].options == EntryOptionsFor(variant, parseDouble, group[j]))
                 && (f.members[j].CachingOverride? ==> f.members[j].returnType == group[j].returnType)
  {
    var f := ExpectedFiles(variant, parseDouble, methods)[k];
    assert f.hintName == f.baseType.name + "_Cached" + ".g.cs";
  }
}

=== FILE: entry_options.dfy ===
/** Which expiration settings a cached override passes to the memory cache:
    the generators read the caching attribute's named arguments and keep an
    absolute or sliding expiration only when the argument's name matches
    exactly, its value converts to a number and that number is not negative.
    Durations are kept as seconds. */
module EntryOptions {
  import opened Common
  import opened Symbols

  /** One assignment in the emitted `MemoryCacheEntryOptions` initializer. */
  datatype CacheOption =
    | AbsoluteExpirationRelativeToNow(seconds: real)
    | SlidingExpiration(seconds: real)

  /** The entry options an emitted `Set` call passes; `None` is "not set". */
  datatype MemoryCacheEntryOptions = MemoryCacheEntryOptions(
    absoluteExpirationRelativeToNow: Option<real>,
    slidingExpiration: Option<real>)

  const DEFAULT_ENTRY_OPTIONS: MemoryCacheEntryOptions := MemoryCacheEntryOptions(None, None)

  const ABSOLUTE_KEY: string := "AbsoluteExpirationRelativeToNow"
  const SLIDING_KEY: string := "SlidingExpirationInSeconds"

  /** `TryGetDoubleFromTypedConstant`: a double as it is, an int widened,
      anything else through `double.TryParse` of its text; null never converts. */
  function TryGetDoubleFromTypedConstant(parseDouble: string -> Option<real>, c: TypedConstant): (r: Option<real>)
    ensures c.NullConstant? ==> r.None?
    ensures c.DoubleConstant? ==> r == Some(c.d)
    ensures c.IntConstant? ==> r.Some? && r.value == c.i as real
    ensures c.OtherConstant? ==> r == parseDouble(c.shown)
  {
    match c
    case DoubleConstant(d) => Some(d)
    case IntConstant(i) => Some(i as real)
    case OtherConstant(shown) => parseDouble(shown)
    case NullConstant => None
  }

  /** The options one named argument contributes (lines 236-243 of the
      CacheThis generator, 204-211 of the CacheIt generator). */
  function OptionsOf(parseDouble: string -> Option<real>, arg: NamedArgument): seq<CacheOption>
  {
    var seconds := TryGetDoubleFromTypedConstant(parseDouble, arg.value);
    (if arg.key == ABSOLUTE_KEY && seconds.Some? && seconds.value >= 0.0
     then [AbsoluteExpirationRelativeToNow(seconds.value)] else [])
    + (if arg.key == SLIDING_KEY && seconds.Some? && seconds.value >= 0.0
       then [SlidingExpiration(seconds.value)] else [])
  }

  function ExpectedOptions(parseDouble: string -> Option<real>, args: seq<NamedArgument>): seq<CacheOption>
  {
    if args == [] then []
    else ExpectedOptions(parseDouble, args[..|args| - 1]) + OptionsOf(parseDouble, args[|args| - 1])
  }

  /** The named argument `arg` is one that makes the generator emit `o`. */
  predicate Attaches(parseDouble: string -> Option<real>, arg: NamedArgument, o: CacheOption)
  {
    && o.seconds >= 0.0
    && TryGetDoubleFromTypedConstant(parseDouble, arg.value) == Some(o.seconds)
    && arg.key == (if o.AbsoluteExpirationRelativeToNow? then ABSOLUTE_KEY else SLIDING_KEY)
  }

  /** `ExtractCacheEntryOptions`: walks the named arguments in order and
      appends each option that one of them attaches. */
  method ExtractCacheEntryOptions(parseDouble: string -> Option<real>, cacheAttribute: AttributeData)
    returns (optionsList: seq<CacheOption>)
    ensures optionsList == ExpectedOptions(parseDouble, cacheAttribute.namedArguments)
  {
    var args := cacheAttribute.namedArguments;
    optionsList := [];
    var i := 0;
    while i < |args|
      invariant 0 <= i <= |args|
      invariant optionsList == ExpectedOptions(parseDouble, args[..i])
    {
      var arg := args[i];
      var absoluteSeconds := TryGetDoubleFromTypedConstant(parseDouble, arg.value);
      if arg.key == ABSOLUTE_KEY && absoluteSeconds.Some? && absoluteSeconds.value >= 0.0 {
        optionsList := optionsList + [AbsoluteExpirationRelativeToNow(absoluteSeconds.value)];
      }
      var slidingSeconds := TryGetDoubleFromTypedConstant(parseDouble, arg.value);
      if arg.key == SLIDING_KEY && slidingSeconds.Some? && slidingSeconds.value >= 0.0 {
        optionsList := optionsList + [SlidingExpiration(slidingSeconds.value)];
      }
      assert args[..i + 1][..i] == args[..i];
      i := i + 1;
    }
    assert args[..i] == args;
  }

  /** One named argument contributes `o` exactly when it attaches `o`. */
  lemma OptionsOfIff(parseDouble: string -> Option<real>, arg: NamedArgument, o: CacheOption)
    ensures o in OptionsOf(parseDouble, arg) <==> Attaches(parseDouble, arg, o)
  {
    assert ABSOLUTE_KEY != SLIDING_KEY by { assert ABSOLUTE_KEY[0] != SLIDING_KEY[0]; }
  }

  /** An emitted option comes from some named argument that attaches it. */
  lemma {:induction false} EmittedOptionSource(parseDouble: string -> Option<real>, args: seq<NamedArgument>, o: CacheOption)
    returns (i: nat)
    requires o in ExpectedOptions(parseDouble, args)
    ensures i < |args| && Attaches(parseDouble, args[i], o)
  {
    var init, last := args[..|args| - 1], args[|args| - 1];
    if o in ExpectedOptions(parseDouble, init) {
      i := EmittedOptionSource(parseDouble, init, o);
      assert args[i] == init[i];
    } else {
      OptionsOfIff(parseDouble, last, o);
      i := |args| - 1;
    }
  }

  /** Every named argument that attaches an option makes it emitted. */
  lemma {:induction false} AttachedOptionEmitted(parseDouble: string -> Option<real>, args: seq<NamedArgument>, i: nat, o: CacheOption)
    requires i < |args| && Attaches(parseDouble, args[i], o)
    ensures o in ExpectedOptions(parseDouble, args)
  {
    var init, last := args[..|args| - 1], args[|args| - 1];
    if i < |init| {
      assert init[i] == args[i];
      AttachedOptionEmitted(parseDouble, init, i, o);
    } else {
      OptionsOfIff(parseDouble, last, o);
    }
  }

  /** An option is emitted exactly when some named argument attaches it: the
      exact key, a convertible value, and a value of at least zero. */
  lemma OptionEmittedIff(parseDouble: string -> Option<real>, args: seq<NamedArgument>, o: CacheOption)
    ensures o in ExpectedOptions(parseDouble, args)
        <==> exists i :: 0 <= i < |args| && Attaches(parseDouble, args[i], o)
  {
    if o in ExpectedOptions(parseDouble, args) {
      var i := EmittedOptionSource(parseDouble, args, o);
    }
    if exists i :: 0 <= i < |args| && Attaches(parseDouble, args[i], o) {
      var i :| 0 <= i < |args| && Attaches(parseDouble, args[i], o);
      AttachedOptionEmitted(parseDouble, args, i, o);
    }
  }

  /** Zero seconds is a valid duration; a negative one is dropped silently. */
  lemma ZeroKeptNegativeDropped(parseDouble: string -> Option<real>, key: string, seconds: real)
    requires key == ABSOLUTE_KEY || key == SLIDING_KEY
    ensures ExpectedOptions(parseDouble, [NamedArgument(key, DoubleConstant(0.0))]) != []
    ensures seconds < 0.0 ==> ExpectedOptions(parseDouble, [NamedArgument(key, DoubleConstant(seconds))]) == []
  {
    assert [NamedArgument(key, DoubleConstant(0.0))][..0] == [];
    assert [NamedArgument(key, DoubleConstant(seconds))][..0] == [];
  }

  /** The object initializer: later assignments of the same property win. */
  function ApplyOptions(options: seq<CacheOption>): (r: MemoryCacheEntryOptions)
    ensures r.absoluteExpirationRelativeToNow.Some?
        ==> AbsoluteExpirationRelativeToNow(r.absoluteExpirationRelativeToNow.value) in options
    ensures r.slidingExpiration.Some? ==> SlidingExpiration(r.slidingExpiration.value) in options
    ensures (exists i :: 0 <= i < |options| && options[i].AbsoluteExpirationRelativeToNow?)
        ==> r.absoluteExpirationRelativeToNow.Some?
    ensures (exists i :: 0 <= i < |options| && options[i].SlidingExpiration?) ==> r.slidingExpiration.Some?
  {
    if options == [] then DEFAULT_ENTRY_OPTIONS
    else
      var init := options[..|options| - 1];
      var r := ApplyOptions(init);
      assert forall i :: 0 <= i < |init| ==> init[i] == options[i];
      match options[|options| - 1]
      case AbsoluteExpirationRelativeToNow(s) => r.(absoluteExpirationRelativeToNow := Some(s))
      case SlidingExpiration(s) => r.(slidingExpiration := Some(s))
  }
}

=== FILE: generated_decorator.dfy ===
/** What a generated `<Type>_Cached` class does at run time. A caching override
    derives a key from the bare method name and the argument texts, answers
    from the class's in-memory store when the key is present, and otherwise
    calls the wrapped instance once and stores what it returned under the key
    with the entry options chosen at generation time. A forwarding method
    calls the wrapped instance and never touches the store. The store is a
    static field, so every decorator of one generated class shares it. */
module GeneratedDecorator {
  import opened Common
  import opened CacheKey
  import opened EntryOptions
  import opened Symbols
  import opened DecoratorSynthesis
  import opened Target

  /** A stored value with the entry options it was stored with. */
  datatype StoreEntry<R> = StoreEntry(value: R, options: MemoryCacheEntryOptions)

  /** `InMemoryCacheStore`: a `MemoryCache` reduced to its key-value map;
      a stored null is still an entry. */
  class MemoryStore<R> {
    var entries: map<string, StoreEntry<R>>

    constructor ()
      ensures entries == map[]
    {
      entries := map[];
    }

    /** `TryGetValue(key, out cachedResult)`: the stored value, if the key is
        present. */
    method TryGetValue(key: string) returns (cachedResult: Option<R>)
      ensures cachedResult.Some? <==> key in entries
      ensures cachedResult.Some? ==> cachedResult.value == entries[key].value
    {
      if key in entries {
        cachedResult := Some(entries[key].value);
      } else {
        cachedResult := None;
      }
    }

    /** `Set(key, value, options)`: adds or replaces the entry for `key`. */
    method Set(key: string, value: R, options: MemoryCacheEntryOptions)
      modifies this
      ensures entries == old(entries)[key := StoreEntry(value, options)]
    {
      entries := entries[key := StoreEntry(value, options)];
    }
  }

  /** The key a caching override derives for a call: the bare method name and
      the argument array `new object[] { ... }`, which is never null. */
  function OverrideKey(p: Platform, name: string, args: seq<Arg>): (key: string)
    ensures forall i :: 0 <= i < |key| ==> IsLowerHexDigit(key[i])
  {
    GenerateCacheKey(p, name, Some(args))
  }

  /** `({returnType})cachedResult`: the value itself when its run-time type
      converts to `returnType`, an `InvalidCastException` otherwise. Whether a
      value converts is given by `castsTo`, which the run-time type system
      decides. */
  function Cast<R>(castsTo: (R, string) -> bool, value: R, returnType: string): Result<R, Failure>
  {
    if castsTo(value, returnType) then Ok(value) else Err(InvalidCast)
  }

  /** An instance of a generated decorator class. */
  class Decorator<R> {
    /** The members the generator emitted for the class, in order. */
    const members: seq<GeneratedMember>
    /** `_instance`, set by the constructor; the constructor accepts null. */
    const instance: Instance?<Signature, R>
    /** The class's static `InMemoryCacheStore`. */
    const store: MemoryStore<R>
    const platform: Platform
    /** Whether a stored value converts to a named type. */
    const castsTo: (R, string) -> bool

    /** `new <Type>_Cached(instance)`; `store` is the class's static store. */
    constructor (members: seq<GeneratedMember>, instance: Instance?<Signature, R>, store: MemoryStore<R>, platform: Platform, castsTo: (R, string) -> bool)
      ensures this.members == members && this.instance == instance
      ensures this.store == store && this.platform == platform && this.castsTo == castsTo
    {
      this.members := members;
      this.instance := instance;
      this.store := store;
      this.platform := platform;
      this.castsTo := castsTo;
    }

    /** What the wrapped `callee` returns for `args` converts to
        `returnType`: C#'s typing guarantees it for a method declared to
        return `returnType`. */
    ghost predicate ResultConverts(callee: Signature, returnType: string, args: seq<Arg>)
    {
      instance != null && instance.behaviour(callee, args).Ok? ==>
        castsTo(instance.behaviour(callee, args).value, returnType)
    }

    /** Every caching member's wrapped method returns values of the member's
        return type. */
    ghost predicate WellTyped()
    {
      forall k, args :: 0 <= k < |members| && members[k].CachingOverride? ==>
        ResultConverts(members[k].Callee(), members[k].returnType, args)
    }

    /** A forwarding method: `return _instance.<name>(args);`, with no key
        and no store access; a null `_instance` throws. It hides the base
        method, so this is a call made through the decorator's own type. */
    method Forward(callee: Signature, args: seq<Arg>) returns (r: Result<R, Failure>)
      modifies instance
      ensures instance == null ==> r == Err(NullReference)
      ensures instance != null ==>
                && r == instance.behaviour(callee, args)
                && instance.calls == old(instance.calls) + [Target.Call(callee, args)]
    {
      if instance == null {
        return Err(NullReference);
      }
      r := instance.Invoke(callee, args);
    }

    /** A caching override: on a hit the stored value cast to `returnType`;
        on a miss one call of `_instance`, whose value is stored with
        `options` and returned as it is, since it has the declared type; a
        call that throws stores nothing, and so does a miss on a null
        `_instance`, which throws. The key holds only the callee's name. */
    method CachedCall(callee: Signature, returnType: string, options: MemoryCacheEntryOptions, args: seq<Arg>) returns (r: Result<R, Failure>)
      requires ResultConverts(callee, returnType, args)
      modifies store, instance
      ensures var key := OverrideKey(platform, callee.name, args);
              if key in old(store.entries) then
                && r == Cast(castsTo, old(store.entries)[key].value, returnType)
                && (instance != null ==> instance.calls == old(instance.calls))
                && store.entries == old(store.entries)
              else if instance == null then
                && r == Err(NullReference)
                && store.entries == old(store.entries)
              else
                var b := instance.behaviour(callee, args);
                && r == b
                && instance.calls == old(instance.calls) + [Target.Call(callee, args)]
                && store.entries == if b.Ok? then old(store.entries)[key := StoreEntry(b.value, options)]
                                    else old(store.entries)
    {
      var key := OverrideKey(platform, callee.name, args);
      var cachedResult := store.TryGetValue(key);
      if cachedResult.None? {
        if instance == null {
          return Err(NullReference);
        }
        var result := instance.Invoke(callee, args);
        if result.Err? {
          return result;
        }
        cachedResult := Some(result.value);
        store.Set(key, result.value, options);
      }
      r := Cast(castsTo, cachedResult.value, returnType);
    }

    /** Calls the emitted member number `member` with `args`. */
    method Call(member: nat, args: seq<Arg>) returns (r: Result<R, Failure>)
      requires member < |members| && WellTyped()
      modifies store, instance
      ensures members[member].Forwarding? ==>
                && store.entries == old(store.entries)
                && (instance == null ==> r == Err(NullReference))
                && (instance != null ==>
                      && r == instance.behaviour(members[member].Callee(), args)
                      && instance.calls == old(instance.calls) + [Target.Call(members[member].Callee(), args)])
      ensures members[member].CachingOverride? ==>
                var m := members[member];
                var key := OverrideKey(platform, m.name, args);
                if key in old(store.entries) then
                  && r == Cast(castsTo, old(store.entries)[key].value, m.returnType)
                  && (instance != null ==> instance.calls == old(instance.calls))
                  && store.entries == old(store.entries)
                else if instance == null then
                  && r == Err(NullReference)
                  && store.entries == old(store.entries)
                else
                  var b := instance.behaviour(m.Callee(), args);
                  && r == b
                  && instance.calls == old(instance.calls) + [Target.Call(m.Callee(), args)]
                  && store.entries == if b.Ok? then old(store.entries)[key := StoreEntry(b.value, m.options)]
                                      else old(store.entries)
    {
      var m := members[member];
      if m.Forwarding? {
        r := Forward(m.Callee(), args);
      } else {
        assert ResultConverts(m.Callee(), m.returnType, args);
        r := CachedCall(m.Callee(), m.returnType, m.options, args);
      }
    }
  }

  /** Calling a caching override twice with the same arguments runs the wrapped
      method at most once unless it throws: the second call gives the same
      answer as the first, from the store once a value was stored. A call that
      throws stores nothing, so the method runs again. */
  method RepeatedCallHitsStore<R>(d: Decorator<R>, member: nat, args: seq<Arg>)
    returns (first: Result<R, Failure>, second: Result<R, Failure>)
    requires member < |d.members| && d.members[member].CachingOverride? && d.WellTyped()
    modifies d.store, d.instance
    ensures second == first
    ensures d.instance != null && OverrideKey(d.platform, d.members[member].name, args) !in old(d.store.entries) ==>
              first == d.instance.behaviour(d.members[member].Callee(), args)
    ensures d.instance != null && d.instance.behaviour(d.members[member].Callee(), args).Ok? ==>
              |d.instance.calls| <= |old(d.instance.calls)| + 1
    ensures d.instance != null && OverrideKey(d.platform, d.members[member].name, args) !in old(d.store.entries) &&
            d.instance.behaviour(d.members[member].Callee(), args).Err? ==>
              |d.instance.calls| == |old(d.instance.calls)| + 2
  {
    assert d.ResultConverts(d.members[member].Callee(), d.members[member].returnType, args);
    first := d.Call(member, args);
    second := d.Call(member, args);
  }

  /** The store is static: a value stored through one decorator answers the
      same call made through another decorator of the same class, whose own
      wrapped instance is then not called. */
  method StoreSharedAcrossInstances<R>(d1: Decorator<R>, d2: Decorator<R>, member: nat, args: seq<Arg>)
    returns (first: Result<R, Failure>, second: Result<R, Failure>)
    requires d1.store == d2.store && d1.platform == d2.platform && d1.members == d2.members && d1.castsTo == d2.castsTo
    requires d1.instance != d2.instance && d1.WellTyped() && d2.WellTyped()
    requires member < |d1.members| && d1.members[member].CachingOverride?
    modifies d1.store, d1.instance, d2.instance
    ensures first.Ok? ==> second == first
    ensures first.Ok? && d2.instance != null ==> d2.instance.calls == old(d2.instance.calls)
  {
    assert d1.ResultConverts(d1.members[member].Callee(), d1.members[member].returnType, args);
    first := d1.Call(member, args);
    second := d2.Call(member, args);
  }

  /** Keys ignore the declaring type, the parameter types and the identity
      of the arguments: two caching members with the same name, overloads
      included, called with arguments that print alike, share an entry. The
      second answers with what the first stored, cast to its own return type:
      it throws `InvalidCastException` when the stored value does not convert
      to that type, and otherwise returns the first member's value without
      calling its own method. */
  method SameNameSharesEntries<R>(d: Decorator<R>, m1: nat, m2: nat, args1: seq<Arg>, args2: seq<Arg>)
    returns (first: Result<R, Failure>, second: Result<R, Failure>)
    requires m1 < |d.members| && m2 < |d.members| && d.WellTyped()
    requires d.members[m1].CachingOverride? && d.members[m2].CachingOverride?
    requires d.members[m1].name == d.members[m2].name
    requires Texts(args1) == Texts(args2)
    modifies d.store, d.instance
    ensures first.Ok? ==> second == Cast(d.castsTo, first.value, d.members[m2].returnType)
    ensures first.Ok? && d.members[m1].returnType == d.members[m2].returnType ==> second == first
    ensures first.Ok? && d.instance != null ==> |d.instance.calls| <= |old(d.instance.calls)| + 1
  {
    var name := d.members[m1].name;
    WriteArgsFollowsTexts(name, args1, args2);
    assert OverrideKey(d.platform, name, args1) == OverrideKey(d.platform, name, args2);
    assert d.ResultConverts(d.members[m1].Callee(), d.members[m1].returnType, args1);
    first := d.Call(m1, args1);
    second := d.Call(m2, args2);
  }
}

=== FILE: minus.dfy ===
/** The demo type `Minus`, whose virtual methods the CacheThis generator
    decorates: a subtraction widened to 64 bits and two builders of the first
    terms of the Fibonacci sequence, one filling an array in a loop and one
    recursive. Both use unchecked 32-bit `int` additions, so every term is the
    true Fibonacci number reduced to 32 bits. */
module Minus {
  import opened Common

  /** `Compute(a, b)`: `(long)a - b`; the exact difference of two 32-bit
      values always fits in 64 bits. */
  function Compute(a: Int32, b: Int32): (r: Int64)
    ensures r as int + b as int == a as int
  {
    (a as int - b as int) as Int64
  }

  /** The Fibonacci numbers, exactly. */
  function Fib(i: nat): nat
  {
    if i < 2 then i else Fib(i - 1) + Fib(i - 2)
  }

  /** The terms as the builders compute them: each is the unchecked 32-bit
      sum of the two before it. */
  function Term(i: nat): Int32
  {
    if i < 2 then i as Int32 else Wrap32(Term(i - 1) as int + Term(i - 2) as int)
  }

  /** `s` holds the first `n` terms. */
  predicate IsFibonacciPrefix(s: seq<Int32>, n: int)
  {
    |s| == n && forall i :: 0 <= i < |s| ==> s[i] == Term(i)
  }

  /** An unchecked addition `t` of values congruent to `x` and `y` is
      congruent to their sum `f`. */
  lemma WrapStep(t: Int32, a: int, b: int, f: int, x: int, y: int)
    requires t == Wrap32(a + b) && f == x + y
    requires Congruent32(a, x) && Congruent32(b, y)
    ensures Congruent32(t as int, f)
  {
    CongruentAdd(a, x, b, y);
    CongruentTrans(t as int, a + b, f);
  }

  /** Each term and the true Fibonacci number agree modulo 2^32. */
  lemma {:induction false} TermCongruent(i: nat)
    ensures Congruent32(Term(i) as int, Fib(i))
  {
    if i >= 2 {
      TermCongruent(i - 1);
      TermCongruent(i - 2);
      WrapStep(Term(i), Term(i - 1) as int, Term(i - 2) as int, Fib(i), Fib(i - 1), Fib(i - 2));
    }
  }

  /** Each term is the true Fibonacci number reduced to 32 bits. */
  lemma TermIsWrappedFib(i: nat)
    ensures Term(i) == Wrap32(Fib(i))
  {
    TermCongruent(i);
    Wrap32Congruent(Term(i) as int, Fib(i));
  }

  /** The `for` loop of `GenerateFibonacciSequence`, from index 2 on. */
  method FillFibonacci(sequence: array<Int32>)
    requires sequence.Length >= 2 && sequence[0] == 0 && sequence[1] == 1
    modifies sequence
    ensures IsFibonacciPrefix(sequence[..], sequence.Length)
  {
    for i := 2 to sequence.Length
      invariant forall j {:trigger sequence[j]} :: 0 <= j < i ==> sequence[j] == Term(j)
    {
      sequence[i] := Wrap32(sequence[i - 1] as int + sequence[i - 2] as int);
    }
  }

  /** `GenerateFibonacciSequence(numberOfTerms)` as written: it writes
      `sequence[1]` before looking at the length, so one term is out of
      range. */
  method GenerateFibonacciSequence(numberOfTerms: Int32) returns (r: Result<seq<Int32>, Failure>)
    ensures numberOfTerms <= 0 ==> r == Err(ArgumentError)
    ensures numberOfTerms == 1 ==> r == Err(IndexOutOfRange)
    ensures numberOfTerms >= 2 ==> r.Ok? && IsFibonacciPrefix(r.value, numberOfTerms as int)
  {
    if numberOfTerms <= 0 {
      return Err(ArgumentError);
    }
    var sequence := new Int32[numberOfTerms as int];
    sequence[0] := 0;
    if sequence.Length <= 1 {
      return Err(IndexOutOfRange);
    }
    sequence[1] := 1;
    FillFibonacci(sequence);
    return Ok(sequence[..]);
  }

  /** The builder with the second term written only when there is room for
      it, as the recursive builder's base case for one term does. */
  method GenerateFibonacciSequenceGuarded(numberOfTerms: Int32) returns (r: Result<seq<Int32>, Failure>)
    ensures numberOfTerms <= 0 ==> r == Err(ArgumentError)
    ensures numberOfTerms >= 1 ==> r.Ok? && IsFibonacciPrefix(r.value, numberOfTerms as int)
  {
    if numberOfTerms <= 0 {
      return Err(ArgumentError);
    }
    var sequence := new Int32[numberOfTerms as int];
    sequence[0] := 0;
    if sequence.Length == 1 {
      return Ok(sequence[..]);
    }
    sequence[1] := 1;
    FillFibonacci(sequence);
    return Ok(sequence[..]);
  }

  /** `FibRecursive(numberOfTerms)`: the terms for one less, resized by one
      and completed with the sum of the last two. */
  function FibRecursive(numberOfTerms: Int32): (r: Result<seq<Int32>, Failure>)
    ensures r.Err? <==> numberOfTerms <= 0
    ensures r.Err? ==> r.error == ArgumentError
    ensures r.Ok? ==> IsFibonacciPrefix(r.value, numberOfTerms as int)
    decreases numberOfTerms
  {
    if numberOfTerms <= 0 then Err(ArgumentError)
    else if numberOfTerms == 1 then Ok([0])
    else if numberOfTerms == 2 then Ok([0, 1])
    else
      var sequence := FibRecursive(numberOfTerms - 1).value;
      var n := numberOfTerms as int;
      Ok(sequence + [Wrap32(sequence[n - 2] as int + sequence[n - 3] as int)])
  }

  /** At most one sequence is a prefix of each length. */
  lemma {:induction false} FibonacciPrefixUnique(s: seq<Int32>, t: seq<Int32>, n: int)
    requires IsFibonacciPrefix(s, n) && IsFibonacciPrefix(t, n)
    ensures s == t
  {
    assert forall i :: 0 <= i < n ==> s[i] == t[i];
  }

  /** The two builders agree from two terms on; for one term the loop builder
      fails where the recursive one returns `[0]`, and the guarded loop builder
      agrees with the recursive one everywhere. */
  method BuildersAgree(numberOfTerms: Int32)
    returns (iterative: Result<seq<Int32>, Failure>, guarded: Result<seq<Int32>, Failure>)
    ensures numberOfTerms >= 2 ==> iterative == FibRecursive(numberOfTerms)
    ensures numberOfTerms == 1 ==> iterative == Err(IndexOutOfRange) && FibRecursive(numberOfTerms) == Ok([0])
    ensures guarded == FibRecursive(numberOfTerms)
  {
    iterative := GenerateFibonacciSequence(numberOfTerms);
    guarded := GenerateFibonacciSequenceGuarded(numberOfTerms);
    var recursive := FibRecursive(numberOfTerms);
    if numberOfTerms >= 2 {
      FibonacciPrefixUnique(iterative.value, recursive.value, numberOfTerms as int);
    }
    if numberOfTerms >= 1 {
      FibonacciPrefixUnique(guarded.value, recursive.value, numberOfTerms as int);
    }
  }
}

=== FILE: recursive_analyzer.dfy ===
/** The analyzer that warns about self-recursive methods (`CacheIt002`): for
    every invocation in a method's body that resolves to the method itself it
    reports one warning at the invocation, naming the method. It does not look
    at attributes, so it fires on any recursive method, cached or not. */
module RecursiveAnalyzer {
  import opened Common
  import opened Symbols

  const DIAGNOSTIC_ID: string := "CacheIt002"

  /** The diagnostic for one self-invocation. */
  function SelfCallDiagnostic(m: MethodSymbol, invocation: Invocation): Diagnostic
  {
    Diagnostic(DIAGNOSTIC_ID, Warning, invocation.location, [m.name])
  }

  /** The diagnostics for the self-invocations among `invocations`, in order. */
  function SelfCallDiagnostics(m: MethodSymbol, invocations: seq<Invocation>): seq<Diagnostic>
  {
    if invocations == [] then []
    else
      var last := invocations[|invocations| - 1];
      SelfCallDiagnostics(m, invocations[..|invocations| - 1])
        + (if last.resolved == Some(m) then [SelfCallDiagnostic(m, last)] else [])
  }

  /** `AnalyzeMethod`: nothing without a declared symbol; otherwise one pass
      over the invocations, reporting each whose symbol equals the method's. */
  method AnalyzeMethod(declaration: MethodDeclaration) returns (diagnostics: seq<Diagnostic>)
    ensures declaration.symbol.None? ==> diagnostics == []
    ensures declaration.symbol.Some? ==> diagnostics == SelfCallDiagnostics(declaration.symbol.value, declaration.invocations)
  {
    diagnostics := [];
    if declaration.symbol.None? {
      return;
    }
    var methodSymbol := declaration.symbol.value;
    var invocations := declaration.invocations;
    for i := 0 to |invocations|
      invariant diagnostics == SelfCallDiagnostics(methodSymbol, invocations[..i])
    {
      var invocation := invocations[i];
      assert invocations[..i + 1][..i] == invocations[..i];
      if invocation.resolved == Some(methodSymbol) {
        diagnostics := diagnostics + [SelfCallDiagnostic(methodSymbol, invocation)];
      }
    }
    assert invocations[..|invocations|] == invocations;
  }

  /** The indices of the invocations that resolve to `m`. */
  function SelfCallIndices(m: MethodSymbol, invocations: seq<Invocation>): set<nat>
  {
    set i: nat | i < |invocations| && invocations[i].resolved == Some(m)
  }

  /** There are as many diagnostics as self-invocations. */
  lemma {:induction false} SelfCallCount(m: MethodSymbol, invocations: seq<Invocation>)
    ensures |SelfCallDiagnostics(m, invocations)| == |SelfCallIndices(m, invocations)|
  {
    if invocations != [] {
      var init := invocations[..|invocations| - 1];
      SelfCallCount(m, init);
      assert forall i :: 0 <= i < |init| ==> init[i] == invocations[i];
      if invocations[|invocations| - 1].resolved == Some(m) {
        assert SelfCallIndices(m, invocations) == SelfCallIndices(m, init) + {|invocations| - 1};
      } else {
        assert SelfCallIndices(m, invocations) == SelfCallIndices(m, init);
      }
    }
  }

  /** Each diagnostic has id `CacheIt002`, severity Warning, the method's
      name as its argument and the location of a self-invocation. */
  lemma {:induction false} SelfCallFields(m: MethodSymbol, invocations: seq<Invocation>)
    ensures forall d :: d in SelfCallDiagnostics(m, invocations) ==>
              && d.id == DIAGNOSTIC_ID && d.severity == Warning && d.messageArgs == [m.name]
              && exists i :: 0 <= i < |invocations| && invocations[i].resolved == Some(m)
                             && invocations[i].location == d.location
  {
    if invocations != [] {
      var init := invocations[..|invocations| - 1];
      SelfCallFields(m, init);
      assert forall i :: 0 <= i < |init| ==> init[i] == invocations[i];
    }
  }

  /** One diagnostic per self-invocation, each with id `CacheIt002`, severity
      Warning, the method's name as its argument and the location of a
      self-invocation; invocations of other methods, or that resolve to
      nothing, are not reported. */
  lemma SelfCallDiagnosticsSound(m: MethodSymbol, invocations: seq<Invocation>)
    ensures |SelfCallDiagnostics(m, invocations)| == |SelfCallIndices(m, invocations)|
    ensures forall d :: d in SelfCallDiagnostics(m, invocations) ==>
              && d.id == DIAGNOSTIC_ID && d.severity == Warning && d.messageArgs == [m.name]
              && exists i :: 0 <= i < |invocations| && invocations[i].resolved == Some(m)
                             && invocations[i].location == d.location
  {
    SelfCallCount(m, invocations);
    SelfCallFields(m, invocations);
  }

  /** Every self-invocation is reported at its location. */
  lemma {:induction false} SelfCallReported(m: MethodSymbol, invocations: seq<Invocation>, i: nat)
    requires i < |invocations| && invocations[i].resolved == Some(m)
    ensures SelfCallDiagnostic(m, invocations[i]) in SelfCallDiagnostics(m, invocations)
  {
    var init := invocations[..|invocations| - 1];
    if i < |init| {
      assert init[i] == invocations[i];
      SelfCallReported(m, init, i);
    }
  }

  /** Reporting distributes over the invocation list. */
  lemma {:induction false} SelfCallDiagnosticsAppend(m: MethodSymbol, a: seq<Invocation>, b: seq<Invocation>)
    ensures SelfCallDiagnostics(m, a + b) == SelfCallDiagnostics(m, a) + SelfCallDiagnostics(m, b)
    decreases |b|
  {
    if b == [] {
      assert a + b == a;
    } else {
      var b' := b[..|b| - 1];
      assert (a + b)[..|a + b| - 1] == a + b';
      assert (a + b)[|a + b| - 1] == b[|b| - 1];
      SelfCallDiagnosticsAppend(m, a, b');
    }
  }

  /** A call of an overload of the method (same type and name, other
      parameter types) is no self-invocation and adds nothing: the
      diagnostics are those of the invocations around it. */
  lemma OverloadCallNotReported(m: MethodSymbol, invocations: seq<Invocation>, i: nat, overload: MethodSymbol)
    requires i < |invocations| && invocations[i].resolved == Some(overload)
    requires overload.containingType == m.containingType && overload.name == m.name
    requires overload.parameterTypes != m.parameterTypes
    ensures SelfCallDiagnostics(m, invocations) ==
            SelfCallDiagnostics(m, invocations[..i]) + SelfCallDiagnostics(m, invocations[i + 1..])
  {
    assert invocations == invocations[..i] + [invocations[i]] + invocations[i + 1..];
    SelfCallDiagnosticsAppend(m, invocations[..i] + [invocations[i]], invocations[i + 1..]);
    SelfCallDiagnosticsAppend(m, invocations[..i], [invocations[i]]);
    assert [invocations[i]][..0] == [];
  }
}

=== FILE: symbols.dfy ===
/** What the compiler hands the generators and analyzers, reduced to plain
    values: named types, method symbols with their modifiers and attributes,
    attribute arguments, method declarations with the invocations in their
    bodies, and the diagnostics the analyzers report. */
module Symbols {
  import opened Common

  /** A named type: `Name` is its simple name, `display` what `ToString()`
      prints (the qualified name, e.g. `Caching.Minus`). */
  datatype TypeSymbol = TypeSymbol(name: string, display: string)

  /** The value of an attribute argument as the compiler stores it. */
  datatype TypedConstant =
    | DoubleConstant(d: real)
    | IntConstant(i: Int32)
    | OtherConstant(shown: string)   // any other constant, through its ToString()
    | NullConstant

  datatype NamedArgument = NamedArgument(key: string, value: TypedConstant)

  /** An attribute application: `AttributeClass.Name`, `AttributeClass.ToString()`
      and its named arguments in source order. */
  datatype AttributeData = AttributeData(
    className: string,
    classDisplay: string,
    namedArguments: seq<NamedArgument>)

  /** A method: its name, `ReturnType.ToString()`, the types of its
      parameters, its modifiers and its attributes. C# allows one method per
      containing type, name and parameter types, so two symbols are the same
      method exactly when they are equal values; overloads differ in
      `parameterTypes`. */
  datatype MethodSymbol = MethodSymbol(
    name: string,
    returnType: string,
    parameterTypes: seq<string>,
    containingType: TypeSymbol,
    isVirtual: bool,
    isAbstract: bool,
    isOverride: bool,
    attributes: seq<AttributeData>)

  /** What identifies a method of a type: its name and parameter types. */
  datatype Signature = Signature(name: string, parameterTypes: seq<string>)

  datatype Location = Location(path: string, start: nat, end: nat)

  /** An invocation in a method body: the method it resolves to, if any. */
  datatype Invocation = Invocation(resolved: Option<MethodSymbol>, location: Location)

  datatype Identifier = Identifier(text: string, location: Location)

  /** A method declaration: its declared symbol (absent when the semantic model
      cannot provide one), its name token and the invocations it contains in
      traversal order. */
  datatype MethodDeclaration = MethodDeclaration(
    symbol: Option<MethodSymbol>,
    identifier: Identifier,
    invocations: seq<Invocation>)

  datatype Severity = Hidden | Info | Warning | Error

  datatype Diagnostic = Diagnostic(
    id: string,
    severity: Severity,
    location: Location,
    messageArgs: seq<string>)
}

=== FILE: target.dfy ===
/** The object a decorator or proxy wraps. Its methods are outside the model:
    what each returns or throws for a method (of type `M`, which tells
    overloads apart) and an argument list is given as a function, and every
    call is recorded so that callers can state how often the underlying
    method runs. */
module Target {
  import opened Common
  import opened CacheKey

  /** One call of the underlying object: the member called and the arguments. */
  datatype Call<M> = Call(member: M, args: seq<Arg>)

  class Instance<M, R> {
    /** What `member` returns (or throws) for `args`. */
    const behaviour: (M, seq<Arg>) -> Result<R, Failure>
    /** The calls made so far, oldest first. */
    ghost var calls: seq<Call<M>>

    constructor (behaviour: (M, seq<Arg>) -> Result<R, Failure>)
      ensures this.behaviour == behaviour && calls == []
    {
      this.behaviour := behaviour;
      calls := [];
    }

    /** `_instance.<member>(args)`: runs the method once. */
    method Invoke(member: M, args: seq<Arg>) returns (r: Result<R, Failure>)
      modifies this`calls
      ensures r == behaviour(member, args)
      ensures calls == old(calls) + [Call(member, args)]
    {
      r := behaviour(member, args);
      calls := calls + [Call(member, args)];
    }
  }
}

=== FILE: virtual_analyzer.dfy ===
/** The analyzer that warns about cached methods that cannot be overridden
    (`CacheIt001`): a method carrying an attribute whose class is named
    exactly `CacheItAttribute` and that is not virtual gets one warning on its
    name. */
module VirtualAnalyzer {
  import opened Common
  import opened Symbols
  import DecoratorSynthesis

  const DIAGNOSTIC_ID: string := "CacheIt001"

  /** `GetAttributes().Any(attr => attr.AttributeClass.Name == "CacheItAttribute")` */
  predicate HasCacheItAttribute(m: MethodSymbol)
  {
    exists i :: 0 <= i < |m.attributes| && m.attributes[i].className == "CacheItAttribute"
  }

  /** `AnalyzeMethod` */
  function AnalyzeMethod(declaration: MethodDeclaration): (diagnostics: seq<Diagnostic>)
    ensures |diagnostics| <= 1
    ensures |diagnostics| == 1 <==>
              declaration.symbol.Some? && HasCacheItAttribute(declaration.symbol.value) && !declaration.symbol.value.isVirtual
    ensures forall d :: d in diagnostics ==>
              d == Diagnostic(DIAGNOSTIC_ID, Warning, declaration.identifier.location, [declaration.identifier.text])
  {
    match declaration.symbol
    case None => []
    case Some(symbol) =>
      if HasCacheItAttribute(symbol) && !symbol.isVirtual
      then [Diagnostic(DIAGNOSTIC_ID, Warning, declaration.identifier.location, [declaration.identifier.text])]
      else []
  }

  /** A method whose attributes are all `CacheThisAttribute` is never warned,
      whatever its modifiers. */
  lemma CacheThisNeverWarned(declaration: MethodDeclaration)
    requires declaration.symbol.Some?
    requires forall a :: a in declaration.symbol.value.attributes ==> a.className == "CacheThisAttribute"
    ensures AnalyzeMethod(declaration) == []
  {
    var attributes := declaration.symbol.value.attributes;
    assert forall i :: 0 <= i < |attributes| ==> attributes[i] in attributes;
  }

  /** The warning tests only `IsVirtual`, while the generator also overrides
      abstract and override methods: a warned method gets a caching override
      exactly when it is abstract or an override (neither of which Roslyn
      reports as virtual), and a method with the
      attribute that is not warned always gets one. */
  lemma WarningDisagreesWithGenerator(declaration: MethodDeclaration)
    requires declaration.symbol.Some? && HasCacheItAttribute(declaration.symbol.value)
    ensures var m := declaration.symbol.value;
            && (AnalyzeMethod(declaration) != [] && DecoratorSynthesis.IsOverridable(m) <==> !m.isVirtual && (m.isAbstract || m.isOverride))
            && (AnalyzeMethod(declaration) == [] ==> DecoratorSynthesis.IsOverridable(m))
  {
  }
}
